=== FILE: README.md ===
# Blogger post lister: a Dafny model

The application is a browser page that lists every post of a Blogger blog.
The user types a Google API key and a blog reference (a URL or a numeric id).
The page initialises the Google API client with the key, resolves a URL to
a blog id, and pages through `posts.list`. It then shows the posts newest
first, grouped under month headers, and can save the list as an HTML file.

This project models the statable logic of the readable build
(`AsWebApp.7c0ccee6.js`) and the earlier revision (`app.js`). The Google
API client is an oracle: every remote call is represented by the reply it
settled with, so each operation is a pure function of its inputs and those
replies.

Modules, following the program's structure:

- `Outcome`: `Option` and `Result`.
- `JsText`: the ECMAScript string operations the page relies on:
  - `trim`;
  - `startsWith`;
  - the test `/^\d+$/`;
  - `replace` with a string pattern.
- `Remote`: the oracle's vocabulary:
  - the error object a rejected call carries;
  - the `||` fallback chains that turn it into text;
  - posts with an abstract timestamp;
  - the replies of `init`, `blogs.getByUrl` and `posts.list`.
- `ClientSession`: the session `(ready, activeKey)`. Covers `initGapiClient`, the key-input reset and the clear reset.
- `Controls`: the page state:
  - the fields, the "remember" box, the rendered rows and `localStorage` as a map;
  - `updateButtonStates`;
  - the storage helpers;
  - the remember, key, blog, clear, initialise and save handlers.
- `BlogRef`: normalisation and routing of the blog reference.
- `Listing`: `getBlogIdFromUrl` and the recursive `listAllPosts`. Each round of the pagination is a `Turn`: the session the guard sees and the reply to that round's request.
- `Render`: the descending sort, the month grouping and the `https` rewrite of links.
- `ExportName`: the file name of the saved list (sanitised identifier and `YYYY-MM-DD` date).
- `GetPosts`: the Get-Posts handler, composed from the modules above.
- `Legacy`: the earlier revision's:
  - initialisation;
  - lookup and pagination;
  - routing;
  - clear and Get-Posts handlers.

  It also carries lemmas comparing each of these with the current build.

An empty `items` array does not stop pagination; a missing `items` or
`result` does, as does a page without a next-page token, a failed request
or a refused guard. `!response.result.items` is false for `[]`, so an empty
page with a next-page token is followed (`Listing.EmptyPageContinues`).

## Model

| member | source | states |
|---|---|---|
| Remote.FirstTruthy | AsWebApp.7c0ccee6.js:210 | JavaScript's `or` chain on strings gives the first non-empty candidate, and is empty only when all candidates are |
| Remote.InitDetailOrder | AsWebApp.7c0ccee6.js:210 | initialisation errors report `details`, else the nested result message, else `message`, else the serialised error |
| Remote.CallDetailOrder | AsWebApp.7c0ccee6.js:226 | lookup and listing errors report `details`, else `message`, else the serialised error, and never the nested result message |
| ClientSession.InitSettled | AsWebApp.7c0ccee6.js:195-213 | a successful `init` makes the sent key the active key of a ready session; a failure leaves `(false, "")` whatever the session was |
| ClientSession.InitGapiClient | AsWebApp.7c0ccee6.js:171-213 | empty key gives `(false, "")` with no call; a session already authorised for the key is kept with no call; otherwise the call is made and its reply decides: success gives `(true, key)`, a fault gives `(false, "")` with the init chain's detail. The result is authorised for the key exactly when it was already or init succeeded; validity is preserved |
| ClientSession.InitShortCircuitIgnoresRemote | AsWebApp.7c0ccee6.js:172-185 | for an empty key or an already-authorised key the remote's reply makes no difference |
| ClientSession.InitIdempotent | AsWebApp.7c0ccee6.js:180-185 | a second initialisation with the same key after a success is the "already initialised" no-op |
| ClientSession.OnKeyInput | AsWebApp.7c0ccee6.js:262-269 | the session is reset to `(false, "")` exactly when it was ready and the trimmed input differs from the active key; a ready result is authorised for the input |
| ClientSession.EditLeavesNoStaleSession | AsWebApp.7c0ccee6.js:262-269 | after an edit the session is ready exactly when it is authorised for the key now in the field, and the edit never grants authority |
| ClientSession.Cleared | AsWebApp.7c0ccee6.js:409-410 | the clear reset leaves a session authorised for no key at all |
| Controls.ButtonsOf | AsWebApp.7c0ccee6.js:65-81 | Get-Posts is enabled iff both trimmed fields are non-empty and the session is authorised for the key; Initialize iff the key is non-empty and not authorised; Save iff rows are shown; Clear and Remember iff the key is non-empty |
| Controls.InitOrGetPosts | AsWebApp.7c0ccee6.js:72-73 | Initialize and Get-Posts are never both enabled, and with both fields filled one of them is |
| Controls.Refresh | AsWebApp.7c0ccee6.js:75-79 | an empty key field unchecks "remember" and removes both stored entries; otherwise nothing changes; other entries are never touched |
| Controls.GetSavedApiKey | AsWebApp.7c0ccee6.js:117-126 | the check box follows the flag, and the stored key is returned only when the flag is exactly `"true"` |
| Controls.SaveApiKey | AsWebApp.7c0ccee6.js:112-116 | with a key in the field, the key and the flag `"true"` are stored; with an empty field the button refresh removes them again and keeps every other entry; the session, both fields and the rows are kept |
| Controls.ClearSavedApiKey | AsWebApp.7c0ccee6.js:127-132 | both entries are removed and the box is unchecked; other entries, the session, both fields and the rows are kept |
| Controls.OnRememberChange | AsWebApp.7c0ccee6.js:271-285 | checking with a key stores the trimmed key and flag; checking with an empty key leaves the box unchecked and storage unchanged; unchecking removes both entries and keeps every other entry; the session, both fields and the rows are kept |
| Controls.RememberRestores | AsWebApp.7c0ccee6.js:112-126 | a remembered key is what the next load restores, trimmed |
| Controls.ForgetRestoresNothing | AsWebApp.7c0ccee6.js:117-132 | after unchecking, the next load restores no key and leaves the box unchecked |
| Controls.OnKeyInputApp | AsWebApp.7c0ccee6.js:262-269 | the field takes the input, the session follows the key-input reset, and a message appears exactly when the session was reset; nothing else changes except through the button refresh, which leaves storage and the box alone while the new key is non-empty |
| Controls.EditedKeyGatesGetPosts | AsWebApp.7c0ccee6.js:262-272 | after any key edit, Get-Posts is enabled only for a ready session whose active key is the trimmed field |
| Controls.OnBlogInput | AsWebApp.7c0ccee6.js:270 | the blog field's edit only refreshes the buttons: session, key field and rows kept; storage and the box change only when the key field is empty |
| Controls.OnClear | AsWebApp.7c0ccee6.js:395-415 | a refused confirmation changes nothing; otherwise the two entries are removed and every other entry kept, the key field and list emptied, the session reset, the blog field kept |
| Controls.ClearDisablesRemoteActions | AsWebApp.7c0ccee6.js:405-414 | after a clear both Get-Posts and Initialize are disabled |
| Controls.OnInitClick | AsWebApp.7c0ccee6.js:286-305 | an empty key or an unloaded library gives its message and no change; otherwise the session is `initGapiClient`'s and its outcome's message is shown; in every case nothing but the session changes |
| Controls.InitClickOutcome | AsWebApp.7c0ccee6.js:201-212 | a success (or an already-authorised key) enables Get-Posts for the field's key and disables Initialize; a failure leaves Initialize as the only remote action |
| Controls.InitLanding | AsWebApp.7c0ccee6.js:201-208 | an `init` settling after the key field changed sets the session from the key that was sent, not the field; nothing else changes except through the button refresh, and nothing at all while the field holds a key |
| Controls.StaleInitCannotListPosts | AsWebApp.7c0ccee6.js:201-202 | such a late success never authorises the edited key, and Get-Posts stays disabled |
| Controls.RememberKeepsConsistent | AsWebApp.7c0ccee6.js:271-285 | the remember handler keeps the invariant: valid session, nothing stored and box unchecked while the key is empty, flag stored while checked |
| Controls.KeyInputKeepsConsistent | AsWebApp.7c0ccee6.js:262-269 | the key handler keeps the invariant |
| Controls.BlogInputKeepsConsistent | AsWebApp.7c0ccee6.js:270 | the blog handler keeps the invariant |
| Controls.ClearKeepsConsistent | AsWebApp.7c0ccee6.js:395-415 | the clear handler keeps the invariant |
| Controls.InitClickKeepsConsistent | AsWebApp.7c0ccee6.js:286-305 | the Initialize handler keeps the invariant |
| Controls.InitLandingKeepsConsistent | AsWebApp.7c0ccee6.js:201-208 | a late `init` settlement keeps the invariant |
| Controls.RestoreKeepsConsistent | AsWebApp.7c0ccee6.js:117-126 | restoring the saved key keeps the invariant |
| Controls.OnLoad | AsWebApp.7c0ccee6.js:560-568 | a fresh page has no session and no rows; a remembered non-empty key is put in the key field with no message, otherwise the field is empty and the welcome prompt is shown; with a key the stored entries and the box follow storage |
| Controls.LoadIsConsistent | AsWebApp.7c0ccee6.js:560-568 | whatever is stored, the loaded page satisfies the state invariant, Get-Posts is disabled, and Initialize is enabled exactly when a key was restored |
| Controls.SaveClick | AsWebApp.7c0ccee6.js:417-434 | a download happens iff rows are shown, under the name `FileName` gives for the blog field and the day: it starts with the sanitised identifier and ends in `.html` |
| Controls.SaveNamesTheDay | AsWebApp.7c0ccee6.js:417-434 | with rows shown, the date part of the saved name reads back as the year, the 1-based month and the day it was saved |
| BlogRef.Normalise | AsWebApp.7c0ccee6.js:330-334 | a non-empty reference with no `http(s)://` scheme that is not all digits gets `https://` prepended; every other reference is kept; the result is schemed or all digits |
| BlogRef.RouteCases | AsWebApp.7c0ccee6.js:330-340 | `RouteOf` on a normalised reference: an all-digit reference is the blog id and never resolved; every other non-empty reference is resolved as a URL (with `https://` added when it had no scheme) |
| BlogRef.NormaliseIdempotent | AsWebApp.7c0ccee6.js:330-334 | normalising twice is normalising once |
| Listing.ResolveCatch | AsWebApp.7c0ccee6.js:224-227 | the lookup's catch gives blog-not-found exactly for code 404, the generic failure with the call chain's detail otherwise |
| Listing.GetBlogIdFromUrl | AsWebApp.7c0ccee6.js:215-228 | "not initialized" exactly when the session is not authorised for the key; success exactly when the authorised lookup returned a non-empty id, and then that id; a remote error goes through the catch |
| Listing.ResolveGuardIgnoresRemote | AsWebApp.7c0ccee6.js:216 | without an authorised session the lookup's reply makes no difference |
| Listing.MissingIdIsRewrapped | AsWebApp.7c0ccee6.js:222-226 | an answer without an id surfaces as "Failed to get Blog ID from URL: Blog ID not found…", not as the inner message |
| Listing.ListCatch | AsWebApp.7c0ccee6.js:243-247 | the listing's catch: 404 iff blog-not-found, 400 iff invalid-request, otherwise the generic failure with the call chain's detail |
| Listing.ListFrom | AsWebApp.7c0ccee6.js:229-248 | a successful frame returns its accumulator extended, never shortened or reordered |
| Listing.ListAllPostsSettles | AsWebApp.7c0ccee6.js:229-242 | in `ListAllPosts` the first round that ends the listing decides: a refused guard gives "not initialized", a failed request its translated error, otherwise the in-order concatenation of every page's items up to that round |
| Listing.ListErrorsTranslatedOnce | AsWebApp.7c0ccee6.js:241-247 | every listing error is the guard's, or the translation of exactly one failed request, however deep the recursion |
| Listing.ListGuardIgnoresRemote | AsWebApp.7c0ccee6.js:230 | without an authorised session the listing fails before any request whatever the replies |
| Listing.GuardRecheckedEachPage | AsWebApp.7c0ccee6.js:230-241 | a session that stops being authorised between pages fails the listing and loses the items gathered |
| Listing.TwoPagesConcatenate | AsWebApp.7c0ccee6.js:239-242 | pages `[A,B]` with a token and `[C]` without list `[A,B,C]` |
| Listing.EmptyPageContinues | AsWebApp.7c0ccee6.js:239-241 | an empty `items` page with a token is followed; a missing `items` stops with what was gathered |
| Listing.LaterNotFoundSurfaces | AsWebApp.7c0ccee6.js:241-244 | a 404 on a later page surfaces as blog-not-found, not wrapped again by earlier frames |
| Render.Insert | AsWebApp.7c0ccee6.js:347 | inserting into a newest-first list keeps it newest-first and adds exactly the one post |
| Render.SortByPublished | AsWebApp.7c0ccee6.js:347 | the result is newest-first and a permutation of the posts |
| Render.SecureUrl | AsWebApp.7c0ccee6.js:378-379 | a leading `http://` becomes `https://`, the rest of the link kept; other links unchanged; the result never starts with `http://` |
| Render.RowsAreBlocks | AsWebApp.7c0ccee6.js:364-384 | `Rows` (the grouping `Group` from no previous month) is, post by post, a header exactly where the month-year differs from the previous post's (and before the first), then the post's item |
| Render.RowsHaveOneItemPerPost | AsWebApp.7c0ccee6.js:364-384 | the items of `Rows` are exactly one per post, in order, each with the post's day, https link and title |
| Render.ItemRows | AsWebApp.7c0ccee6.js:377-382 | one item per post, at the post's position |
| Render.HeadersDescend | AsWebApp.7c0ccee6.js:364-376 | on sorted posts each header names a strictly earlier month than the headers before it |
| Render.HeadersCover | AsWebApp.7c0ccee6.js:364-376 | on sorted posts the headers name exactly the posts' month-years other than the previous one |
| Render.SortedRowsHeaders | AsWebApp.7c0ccee6.js:347-376 | on sorted posts no month-year is announced twice and every month-year of a post is announced |
| Render.ThreePostsExample | AsWebApp.7c0ccee6.js:347-376 | posts of 5 Jan, 1 Mar and 20 Jan 2024 are shown Mar 1, Jan 20, Jan 5 under the headers March 2024 and January 2024 |
| ExportName.StripScheme | AsWebApp.7c0ccee6.js:433 | one leading `https://` or `http://` is removed; other text kept |
| ExportName.SlashesToHyphens | AsWebApp.7c0ccee6.js:433 | same length, no `/` left; a `/` becomes `-` at its place and every other character stays in place |
| ExportName.CollapseDots | AsWebApp.7c0ccee6.js:433 | no dot survives, and text without dots is unchanged |
| ExportName.CollapseSingleDots | AsWebApp.7c0ccee6.js:433 | where no two dots are adjacent, each dot becomes a hyphen in place and nothing else changes |
| ExportName.CollapsePlain | AsWebApp.7c0ccee6.js:433 | a dot-free prefix is copied unchanged in front of the rest's result |
| ExportName.CollapseRun | AsWebApp.7c0ccee6.js:433 | a maximal run of dots of any length becomes exactly one hyphen |
| ExportName.KeepAllowed | AsWebApp.7c0ccee6.js:433 | only letters, digits and hyphens remain; clean text is unchanged |
| ExportName.KeepAllowedCounts | AsWebApp.7c0ccee6.js:433 | every allowed character is kept exactly as many times as it occurs |
| ExportName.KeepAllowedAppend | AsWebApp.7c0ccee6.js:433 | the filter works piecewise over a concatenation, so the kept characters keep their order |
| ExportName.KeepAllowedOne | AsWebApp.7c0ccee6.js:433 | one character is kept exactly when it is a letter, a digit or `-` |
| ExportName.TrimHyphens | AsWebApp.7c0ccee6.js:433 | the result is a slice `s[i..j]` with only hyphens outside it and no hyphen at either of its ends; it is empty exactly when the text is all hyphens |
| ExportName.Truncate | AsWebApp.7c0ccee6.js:433 | at most 50 characters, the prefix of longer text, empty only for empty text |
| ExportName.Sanitised | AsWebApp.7c0ccee6.js:433 | the chain of rewrites gives allowed characters only, at most 50, not starting with `-`, and empty exactly when the cleaned text is all hyphens |
| ExportName.Identifier | AsWebApp.7c0ccee6.js:433-434 | the sanitised text when it is non-empty, otherwise `unknown-blog`; so only `[A-Za-z0-9-]`, 1 to 50 characters, never starting with `-` |
| ExportName.ExampleAddressIdentifier | AsWebApp.7c0ccee6.js:433-434 | `https://my.blog.com/` gives `my-blog-com`, each step read off the contracts above |
| ExportName.CleanIdentifierFixedPoint | AsWebApp.7c0ccee6.js:433-434 | a clean short text not starting with `-` is its own identifier iff it does not end with `-` |
| ExportName.IdentifierFixedPoint | AsWebApp.7c0ccee6.js:433-434 | sanitising an identifier again changes it iff it ends with `-` |
| ExportName.LongCleanIsCut | AsWebApp.7c0ccee6.js:433 | clean text longer than 50 is cut at 50 whatever lands last |
| ExportName.TrailingHyphenSurvives | AsWebApp.7c0ccee6.js:433 | 49 letters then `-b` give an identifier ending in `-`: trimming comes before truncation |
| ExportName.DecimalRoundTrip | AsWebApp.7c0ccee6.js:432 | the decimal text of a number reads back as that number |
| ExportName.TwoDigits | AsWebApp.7c0ccee6.js:432 | a month or day padded to two characters is two digits that read back as the number |
| JsText.Trim | AsWebApp.7c0ccee6.js:308-309 | no white space at either end of the result, which is empty exactly when the text is blank |
| JsText.TrimSlice | AsWebApp.7c0ccee6.js:308-309 | the trimmed text is a slice `s[i..j]` with only white space outside it |
| ExportName.DateStampRoundTrip | AsWebApp.7c0ccee6.js:432 | `DateStamp` is year, `-`, two-digit month (1-based), `-`, two-digit day, each reading back (`DateReadsBack`); ten characters for a four-digit year |
| ExportName.FileName | AsWebApp.7c0ccee6.js:549 | the name is the identifier, `-Posts-List-`, the date text and `.html`, each at its place |
| GetPosts.BlogIdFor | AsWebApp.7c0ccee6.js:335-340 | an all-digit reference is the id; any other reference takes the lookup's answer |
| GetPosts.Show | AsWebApp.7c0ccee6.js:342-348 | no posts show the single notice; otherwise the sorted, grouped rows and the count |
| GetPosts.Fetch | AsWebApp.7c0ccee6.js:328-393 | the session and key are untouched and the normalised reference is written back when it changed; a failed lookup shows `Error: ` and its text, else a failed listing shows its text, else no posts show the single notice, else the sorted, grouped rows and the count are shown; a failure leaves the rows |
| GetPosts.GetPostsClick | AsWebApp.7c0ccee6.js:306-394 | the session check comes before the field check, each rejecting with its prompt and an emptied list; otherwise the fetch runs on an emptied list |
| GetPosts.RejectedIffButtonDisabled | AsWebApp.7c0ccee6.js:318-327 | the handler rejects exactly when its button would be disabled |
| GetPosts.DigitsAreNeverResolved | AsWebApp.7c0ccee6.js:330-341 | an all-digit reference ignores the lookup's reply and the field keeps its text |
| GetPosts.SchemeAddedToField | AsWebApp.7c0ccee6.js:330-332 | a reference without scheme that is not all digits is written back with `https://` |
| GetPosts.ListedShowsEveryPost | AsWebApp.7c0ccee6.js:341-384 | an authorised click whose lookup and listing succeed with posts shows their count and one item per listed post, newest first |
| GetPosts.StaleSessionFailsListing | AsWebApp.7c0ccee6.js:341-388 | on an all-digit reference the first round is authorised; when a later round's guard refuses (an earlier `init` settled meanwhile), the click shows "Error: Google API Client is not initialized…" and no rows |
| GetPosts.GetPostsKeepsConsistent | AsWebApp.7c0ccee6.js:306-394 | the handler keeps the state invariant |
| Legacy.LegacyInit | app.js:81-112 | the ready-and-same-client-key short-circuit first, then the empty-key reset, then the remote decides the flag and the failure text uses the init chain |
| Legacy.EmptyKeyInitCompared | app.js:82-93 | with an empty key the current build always resets; the earlier one keeps a ready client whose key matches |
| Legacy.LegacyGetBlogId | app.js:117-130 | "not initialized" iff the flag is off; a remote error is wrapped generically; an answer yields its id or `undefined`; a missing `result` is a wrapped TypeError |
| Legacy.NotFoundLookupCompared | app.js:127-129 | a 404 lookup is named by the current build and generic in the earlier one |
| Legacy.LegacyListFrom | app.js:132-155 | a successful frame extends its accumulator |
| Legacy.LegacyListAllPostsSettles | app.js:132-151 | `LegacyListAllPosts` concatenates every page's items (missing counting as empty) up to the first without a token; the flag, a failed request or a missing `result` fails it |
| Legacy.LegacyGuardRefusesWhenNotReady | app.js:133-135 | with the flag off the listing fails before any request, whatever the replies |
| Legacy.KeyChangeCompared | app.js:133-135 | with a ready client initialised for another key, the current build refuses to list and the earlier one lists the page |
| Legacy.ItemlessPageCompared | app.js:145-148 | a page without `items` but with a token: the current build stops with `[]`, the earlier one lists the next page |
| Legacy.ListingsAgree | app.js:132-155 | on pages that carry `items`, the two listings give the same posts or corresponding failures |
| Legacy.LegacyRoute | app.js:191-196 | only `http(s)://` references are resolved; every other reference is the id verbatim |
| Legacy.RoutesCompared | app.js:191-196 | the revisions route alike except a reference with no scheme that is not all digits: resolved as https by the current build, sent as an id by the earlier one |
| Legacy.LegacyClear | app.js:224-230 | the flag is reset, the key field and stored key removed, other entries kept |
| Legacy.LegacyResets | app.js:87-93 | clearing, and an empty-key init without the short-circuit, both leave the flag off |
| Legacy.LegacyBlogId | app.js:191-196 | an unschemed reference is the id; a schemed one takes the lookup's answer |
| Legacy.LegacyFetch | app.js:191-215 | a failed lookup shows `Error: ` and its text, else a failed listing does, else no posts show the notice, else a non-empty newest-first permutation of the listed posts is shown; no prompt arises after the checks |
| Legacy.LegacyUnschemedNeverResolved | app.js:191-196 | an unschemed reference ignores the lookup's reply |
| Legacy.LegacyGetPostsClick | app.js:159-222 | empty blog, then empty key: the shown result is only the prompt, with fields, flag and storage unchanged; otherwise the trimmed key is stored first, then an unloaded core fails with its text, an `init` that leaves the flag off fails with its text and the flag off, and with the flag on the result is `LegacyFetch` of the trimmed reference |
| Legacy.LegacyClickShowsListing | app.js:180-215 | a click that passes the checks and initialises shows every post of the earlier listing, newest first, for a reference sent as the id |
| Legacy.LegacyKeyStoredEvenOnFailure | app.js:166-175 | a click that fails after the checks still leaves the key stored |

## Left out

- The Google API client itself. `gapi.load`, `client.init`, `blogs.getByUrl` and `posts.list` are the replies they settle with. A listing's blog id and page token are not passed anywhere, because the replies are given.
- Promise sequencing is not modelled. The one interleaving modelled is an `init` that settles after the key was edited (`Controls.InitLanding`). Otherwise each listing round carries the session its guard sees. A guard that runs in the same turn as the handler's own check is not free: the lookup's guard sees the click's session (or, in the earlier revision, the flag on), and so does the first round's guard when no lookup comes before it (`GetPosts.FirstRoundNow`, `Legacy.LegacyFirstRoundNow`).
- `onGapiLoaded`, `autoGetPostsIfReady` and `getBlogIdFromQuery` are not modelled; they are start-up wiring. Of the `DOMContentLoaded` handler, `Controls.OnLoad` models the key restore, the welcome prompt and the button refresh; the theme, the query string and the key field's type are left out. A rejection of the core-loading promise is also left out.
- In the earlier revision, `gapi.client.apiKey` is a field of the client library and is not modelled. Its comparison is a boolean input.
- DOM work is not modelled:
  - the HTML and `innerHTML` text;
  - the spinner and `showLoading`'s temporary disabling of controls;
  - the key visibility toggle;
  - the theme;
  - the "Total Posts" text;
  - the info and success messages shown while fetching.
  The confirm dialog is a boolean input.
- In the earlier revision, the `getPostsButton.disabled` assignments are not modelled. The handlers set them directly, and no state function decides them.
- Message timers and console logging are not modelled.
- JavaScript `Date` is not modelled. The parsing, the time zone and `toLocaleString` are outside the model. A publication time is an abstract `Stamp` (year, month, day, time of day). The Save date is given as numbers.
- The export document is not modelled: its HTML template, the `Blob` and the download. Only its file name is.
- AsWebApp.7d5671c0.js is a minified copy of the readable build and is not part of this model.
- Render.SortByPublished: the contract states order and permutation but not stability. `Array.prototype.sort` is stable, and so is the insertion the model uses, but that is not proved.
- Listing.ListAllPosts requires that some round ends the listing. The code has no page cap and would loop forever on a remote that always returns a token.
- Legacy.LegacyListAllPosts has the same requirement.
- Controls.SaveClick, Controls.SaveNamesTheDay, ExportName.FileName, ExportName.DateStampRoundTrip: the date must be a real calendar day (month 0–11, day 1–31, year ≥ 0). Negative years are not modelled.
- GetPosts.Fetch shows the message texts only for failures. The success texts are not modelled.
- Legacy.LegacyFetch does the same.
- UndefinedRead: the text of the TypeError thrown by reading a property of `undefined` is V8's wording; other engines word it differently.
- GetPosts.Fetch: the session after the click is the session before it. While the fetch runs, `showLoading` disables the key field, Clear, Initialize and Remember, so the only change the session can undergo is an `init` from an earlier Initialize click settling late. The model lets the rounds after an `await` carry any session for that reason, and does not write that change back into the returned state.
- Legacy.LegacyGetPostsClick: `LegacyApp` has no rows. The emptying of the list and the message before the checks is represented only by the shown result replacing whatever was shown.

=== FILE: blogref.dfy ===
/** Normalisation and routing of the blog reference typed by the user
    (Get-Posts handler of AsWebApp.7c0ccee6.js): a bare number is a blog id,
    anything else is a URL to resolve, given `https://` when it has no scheme. */
module BlogRef {
  import opened JsText

  /** Where the blog id comes from: the reference itself, or a
      `blogs.getByUrl` lookup of a URL. */
  datatype Route = ById(blogId: string) | ByUrl(url: string)

  /** A reference that is neither `http(s)://`-prefixed nor all digits gets
      `https://` in front; every other reference is kept. */
  function Normalise(ref: string): (r: string)
    ensures ref != "" && !HasHttpScheme(ref) && !AllDigits(ref) ==> r == "https://" + ref
    ensures ref == "" || HasHttpScheme(ref) || AllDigits(ref) ==> r == ref
    ensures ref != "" ==> HasHttpScheme(r) || AllDigits(r)
  {
    if |ref| > 0 && !HasHttpScheme(ref) && !AllDigits(ref) then
      var r := "https://" + ref;
      assert r[..8] == "https://";
      r
    else ref
  }

  /** The id source for a (trimmed) reference: URLs after normalisation are
      resolved, everything else is used as the id. */
  function RouteOf(ref: string): Route {
    var n := Normalise(ref);
    if HasHttpScheme(n) then ByUrl(n) else ById(n)
  }

  /** An all-digit reference is the blog id itself and is never resolved; any
      other non-empty reference is resolved as a URL, with `https://` added
      when it had no scheme. */
  lemma RouteCases(ref: string)
    ensures AllDigits(ref) ==> RouteOf(ref) == ById(ref)
    ensures ref != "" && !AllDigits(ref) && HasHttpScheme(ref) ==> RouteOf(ref) == ByUrl(ref)
    ensures ref != "" && !AllDigits(ref) && !HasHttpScheme(ref) ==> RouteOf(ref) == ByUrl("https://" + ref)
    ensures ref != "" ==> (RouteOf(ref).ById? <==> AllDigits(ref))
  {
    if AllDigits(ref) && HasHttpScheme(ref) {
      SchemeIsNotDigits(ref);
    }
    if ref != "" && !AllDigits(ref) && !HasHttpScheme(ref) {
      assert HasHttpScheme(Normalise(ref));
    }
    if ref != "" && AllDigits(ref) {
      assert !HasHttpScheme(ref) by {
        if HasHttpScheme(ref) {
          SchemeIsNotDigits(ref);
        }
      }
    }
  }

  /** Normalising twice is normalising once. */
  lemma NormaliseIdempotent(ref: string)
    ensures Normalise(Normalise(ref)) == Normalise(ref)
  {
  }
}

=== FILE: controls.dfy ===
/** The page controls of the current build (AsWebApp.7c0ccee6.js): the two
    input fields, the "remember" check box, the rendered list, the stored
    entries in `localStorage`, and the handlers that change them. */
module Controls {
  import opened Outcome
  import opened JsText
  import opened Remote
  import opened ClientSession
  import opened Render
  import opened ExportName

  /** The `localStorage` entries holding the key and the remember flag. */
  const KeyEntry := "blogger_api_key"
  const RememberEntry := "blogger_api_key_remember"

  /** The state a handler sees: the session, the raw field values, the check
      box, the stored entries and the rows of the result list. */
  datatype App = App(
    session: Session,
    keyInput: string,
    blogInput: string,
    remember: bool,
    storage: map<string, string>,
    rows: seq<Row>)

  /** The `disabled` flags `updateButtonStates` assigns. */
  datatype Buttons = Buttons(
    clearDisabled: bool,
    getPostsDisabled: bool,
    initDisabled: bool,
    rememberDisabled: bool,
    saveDisabled: bool)

  /** The flags as a function of the state: Get-Posts needs both fields and
      a session authorised for the key in the field, Initialize needs a key
      the session is not yet authorised for, Save needs rows on the page. */
  function ButtonsOf(a: App): (b: Buttons)
    ensures !b.getPostsDisabled <==>
              Trim(a.blogInput) != "" && Trim(a.keyInput) != "" && Authorised(a.session, Trim(a.keyInput))
    ensures !b.initDisabled <==> Trim(a.keyInput) != "" && !Authorised(a.session, Trim(a.keyInput))
    ensures !b.saveDisabled <==> |a.rows| > 0
    ensures b.clearDisabled <==> Trim(a.keyInput) == ""
    ensures b.rememberDisabled <==> Trim(a.keyInput) == ""
  {
    var key := Trim(a.keyInput);
    var keyEmpty := |key| == 0;
    var blogEmpty := |Trim(a.blogInput)| == 0;
    var matches := key == a.session.activeKey && a.session.ready;
    Buttons(
      keyEmpty,
      blogEmpty || keyEmpty || !a.session.ready || !matches,
      keyEmpty || (a.session.ready && matches),
      keyEmpty,
      !(|a.rows| > 0))
  }

  /** Initialize and Get-Posts are never offered together, and one of them is
      offered whenever both fields are filled in. */
  lemma InitOrGetPosts(a: App)
    ensures ButtonsOf(a).initDisabled || ButtonsOf(a).getPostsDisabled
    ensures Trim(a.blogInput) != "" && Trim(a.keyInput) != "" ==>
              !ButtonsOf(a).initDisabled || !ButtonsOf(a).getPostsDisabled
  {
  }

  /** The side effect of `updateButtonStates`: an empty key field unchecks
      "remember" and removes both stored entries. */
  function Refresh(a: App): (r: App)
    ensures Trim(a.keyInput) != "" ==> r == a
    ensures Trim(a.keyInput) == "" ==>
              && !r.remember && KeyEntry !in r.storage && RememberEntry !in r.storage
              && r == a.(remember := false, storage := r.storage)
    ensures forall k :: k != KeyEntry && k != RememberEntry ==>
              (k in r.storage <==> k in a.storage) && (k in a.storage ==> r.storage[k] == a.storage[k])
  {
    if |Trim(a.keyInput)| == 0 then
      a.(remember := false, storage := a.storage - {KeyEntry, RememberEntry})
    else a
  }

  /** The stored entries and check box agree with the rest of the state:
      the session is valid, an empty key field leaves nothing stored and the
      box unchecked, and a checked box has the flag stored. */
  predicate Consistent(a: App) {
    && Valid(a.session)
    && (Trim(a.keyInput) == "" ==> !a.remember && KeyEntry !in a.storage && RememberEntry !in a.storage)
    && (a.remember ==> RememberEntry in a.storage && a.storage[RememberEntry] == "true")
  }

  /** The flag value `getSavedApiKey` accepts. */
  predicate RememberSet(storage: map<string, string>) {
    RememberEntry in storage && storage[RememberEntry] == "true"
  }

  /** What `getSavedApiKey` reads back: the stored key, and only when the
      flag says "true". */
  datatype Restored = Restored(app: App, key: Option<string>)

  /** `getSavedApiKey()`: the check box follows the flag, and the stored key
      is returned only when the flag is exactly "true". */
  function GetSavedApiKey(a: App): (r: Restored)
    ensures r.app == a.(remember := RememberSet(a.storage))
    ensures r.key.Some? <==> RememberSet(a.storage) && KeyEntry in a.storage
    ensures r.key.Some? ==> r.key.value == a.storage[KeyEntry]
  {
    if RememberSet(a.storage) then
      Restored(a.(remember := true), if KeyEntry in a.storage then Some(a.storage[KeyEntry]) else None)
    else Restored(a.(remember := false), None)
  }

  /** `saveApiKey(key)`: the key and the flag are stored, then the buttons
      are refreshed, which removes both again when the key field is empty. */
  function SaveApiKey(a: App, key: string): (r: App)
    ensures Trim(a.keyInput) != "" ==>
              && r.storage == a.storage[KeyEntry := key][RememberEntry := "true"]
              && RememberSet(r.storage) && r.remember == a.remember
    ensures Trim(a.keyInput) == "" ==> KeyEntry !in r.storage && !RememberSet(r.storage) && !r.remember
    ensures Trim(a.keyInput) == "" ==> forall k :: k != KeyEntry && k != RememberEntry ==>
              (k in r.storage <==> k in a.storage) && (k in a.storage ==> r.storage[k] == a.storage[k])
    ensures r.session == a.session && r.keyInput == a.keyInput && r.rows == a.rows && r.blogInput == a.blogInput
  {
    Refresh(a.(storage := a.storage[KeyEntry := key][RememberEntry := "true"]))
  }

  /** `clearSavedApiKey()`: both entries removed, the box unchecked. */
  function ClearSavedApiKey(a: App): (r: App)
    ensures !r.remember && KeyEntry !in r.storage && RememberEntry !in r.storage
    ensures forall k :: k != KeyEntry && k != RememberEntry ==>
              (k in r.storage <==> k in a.storage) && (k in a.storage ==> r.storage[k] == a.storage[k])
    ensures r.session == a.session && r.keyInput == a.keyInput && r.rows == a.rows && r.blogInput == a.blogInput
  {
    Refresh(a.(storage := a.storage - {KeyEntry, RememberEntry}, remember := false))
  }

  /** A handler's effect: the new state and the message it displays, if any. */
  datatype Step = Step(app: App, message: Option<string>)

  /** The change handler of the "remember" box. Checking it with a key in
      the field stores the trimmed key; checking it with an empty field
      unchecks it again and stores nothing; unchecking it removes both entries. */
  function OnRememberChange(a: App, checked: bool): (r: Step)
    ensures checked && Trim(a.keyInput) != "" ==>
              r.app.remember && r.app.storage == a.storage[KeyEntry := Trim(a.keyInput)][RememberEntry := "true"]
    ensures checked && Trim(a.keyInput) == "" ==> !r.app.remember && r.app.storage == a.storage
    ensures !checked ==> !r.app.remember && KeyEntry !in r.app.storage && RememberEntry !in r.app.storage
    ensures !checked ==> forall k :: k != KeyEntry && k != RememberEntry ==>
              (k in r.app.storage <==> k in a.storage) && (k in a.storage ==> r.app.storage[k] == a.storage[k])
    ensures r.app.session == a.session && r.app.keyInput == a.keyInput && r.app.rows == a.rows
    ensures r.app.blogInput == a.blogInput
  {
    var key := Trim(a.keyInput);
    if checked then
      if |key| > 0 then Step(SaveApiKey(a.(remember := true), key), Some("API Key saved to local storage."))
      else
        Step(a.(remember := false),
             Some("Please enter an API Key before checking \"Remember API Key\"."))
    else Step(ClearSavedApiKey(a.(remember := false)), Some("API Key removed from local storage."))
  }

  /** Remembering a key and restoring it on the next load gives back the
      trimmed key that was in the field. */
  lemma RememberRestores(a: App, next: App)
    requires Trim(a.keyInput) != ""
    requires next.storage == OnRememberChange(a, true).app.storage
    ensures GetSavedApiKey(next).key == Some(Trim(a.keyInput))
    ensures GetSavedApiKey(next).app.remember
  {
  }

  /** Once "remember" is unchecked nothing is restored on the next load. */
  lemma ForgetRestoresNothing(a: App, next: App)
    requires next.storage == OnRememberChange(a, false).app.storage
    ensures GetSavedApiKey(next).key == None
    ensures !GetSavedApiKey(next).app.remember
  {
  }

  /** The key field's input handler: the session is reset when the trimmed
      field no longer names the active key of a ready session. */
  function OnKeyInputApp(a: App, input: string): (r: Step)
    ensures r.app.keyInput == input
    ensures r.app.session == OnKeyInput(a.session, input)
    ensures r.message.Some? <==> r.app.session != a.session
    ensures r.app.rows == a.rows && r.app.blogInput == a.blogInput
    ensures Trim(input) != "" ==> r.app.remember == a.remember && r.app.storage == a.storage
    ensures r.app == Refresh(a.(keyInput := input, session := r.app.session))
  {
    var s := OnKeyInput(a.session, input);
    var msg := if s != a.session
               then Some("API Key changed. Please click \"Initialize API Client\" to re-initialize.")
               else None;
    Step(Refresh(a.(keyInput := input, session := s)), msg)
  }

  /** After any edit of the key field, Get-Posts is enabled only for a
      session initialised with exactly the key now in the field. */
  lemma EditedKeyGatesGetPosts(a: App, input: string)
    ensures var b := OnKeyInputApp(a, input).app;
            !ButtonsOf(b).getPostsDisabled ==> b.session == Session(true, Trim(input))
  {
  }

  /** The blog field's input handler only refreshes the buttons. */
  function OnBlogInput(a: App, input: string): (r: App)
    ensures r.blogInput == input && r.session == a.session && r.rows == a.rows && r.keyInput == a.keyInput
    ensures Trim(a.keyInput) != "" ==> r.remember == a.remember && r.storage == a.storage
    ensures Trim(a.keyInput) == "" ==> !r.remember && KeyEntry !in r.storage && RememberEntry !in r.storage
  {
    Refresh(a.(blogInput := input))
  }

  /** The clear handler. With a key in the field it asks for confirmation and
      does nothing when refused; otherwise it removes the stored entries,
      empties the key field and the list, and resets the session. */
  function OnClear(a: App, confirmed: bool): (r: Step)
    ensures Trim(a.keyInput) != "" && !confirmed ==> r == Step(a, None)
    ensures Trim(a.keyInput) == "" || confirmed ==>
              && r.app.session == Idle && r.app.keyInput == "" && r.app.rows == []
              && !r.app.remember && KeyEntry !in r.app.storage && RememberEntry !in r.app.storage
              && r.app.blogInput == a.blogInput
    ensures Trim(a.keyInput) == "" || confirmed ==>
              forall k :: k != KeyEntry && k != RememberEntry ==>
                (k in r.app.storage <==> k in a.storage) && (k in a.storage ==> r.app.storage[k] == a.storage[k])
  {
    if |Trim(a.keyInput)| > 0 && !confirmed then Step(a, None)
    else
      var b := ClearSavedApiKey(a);
      Step(Refresh(b.(keyInput := "", session := Cleared(b.session), rows := [])),
           Some("API Key cleared from local storage and input field. Please re-enter to use."))
  }

  /** After a clear that went ahead neither remote operation can be started:
      both Get-Posts and Initialize are disabled. */
  lemma ClearDisablesRemoteActions(a: App)
    ensures ButtonsOf(OnClear(a, true).app).getPostsDisabled
    ensures ButtonsOf(OnClear(a, true).app).initDisabled
  {
    assert Trim("") == "";
  }

  /** The Initialize button's handler with the client library loaded or not
      and `gapi.client.init` settling with `reply`. */
  function OnInitClick(a: App, coreLoaded: bool, reply: InitReply): (r: Step)
    ensures Trim(a.keyInput) == "" ==> r == Step(a, Some("Please enter an API Key before initializing."))
    ensures Trim(a.keyInput) != "" && !coreLoaded ==>
              r == Step(a, Some("Google API client script not yet loaded. Please wait."))
    ensures Trim(a.keyInput) != "" && coreLoaded ==>
              var step := InitGapiClient(a.session, Trim(a.keyInput), reply);
              r.app.session == step.session && r.message == Some(InitText(step.result))
    ensures r.app.keyInput == a.keyInput && r.app.rows == a.rows && r.app.storage == a.storage
    ensures r.app == a.(session := r.app.session)
  {
    var key := Trim(a.keyInput);
    if |key| == 0 then Step(a, Some("Please enter an API Key before initializing."))
    else if !coreLoaded then Step(a, Some("Google API client script not yet loaded. Please wait."))
    else
      var step := InitGapiClient(a.session, key, reply);
      Step(Refresh(a.(session := step.session)), Some(InitText(step.result)))
  }

  /** A successful initialisation enables Get-Posts as soon as a blog is
      entered; a failed one leaves Initialize as the only remote action. */
  lemma InitClickOutcome(a: App, reply: InitReply)
    requires Trim(a.keyInput) != ""
    ensures var b := OnInitClick(a, true, reply).app;
            reply.InitOk? || Authorised(a.session, Trim(a.keyInput)) ==>
              Authorised(b.session, Trim(b.keyInput)) && ButtonsOf(b).initDisabled
    ensures var b := OnInitClick(a, true, reply).app;
            reply.InitFault? && !Authorised(a.session, Trim(a.keyInput)) ==>
              ButtonsOf(b).getPostsDisabled && !ButtonsOf(b).initDisabled
  {
  }

  /** The settlement of an `init` call for `key` landing on a state whose key
      field may have been edited while the call was pending (the edit
      handler saw a session that was not ready and so kept it). */
  function InitLanding(a: App, key: string, reply: InitReply): (r: App)
    ensures r.session == InitSettled(key, reply).session
    ensures r.keyInput == a.keyInput && r.rows == a.rows && r.blogInput == a.blogInput
    ensures Trim(a.keyInput) != "" ==> r == a.(session := r.session)
    ensures r == Refresh(a.(session := r.session))
  {
    Refresh(a.(session := InitSettled(key, reply).session))
  }

  /** A key edited during a pending initialisation cannot use the session
      that initialisation produces: the session answers for the old key only. */
  lemma StaleInitCannotListPosts(a: App, key: string, reply: InitReply)
    requires Trim(a.keyInput) != key
    ensures ButtonsOf(InitLanding(a, key, reply)).getPostsDisabled
    ensures !Authorised(InitLanding(a, key, reply).session, Trim(a.keyInput))
  {
  }

  // ---------------------------------------------------------------------
  // Every handler keeps the state consistent.

  lemma RememberKeepsConsistent(a: App, checked: bool)
    requires Consistent(a)
    ensures Consistent(OnRememberChange(a, checked).app)
  {
  }

  lemma KeyInputKeepsConsistent(a: App, input: string)
    requires Consistent(a)
    ensures Consistent(OnKeyInputApp(a, input).app)
  {
  }

  lemma BlogInputKeepsConsistent(a: App, input: string)
    requires Consistent(a)
    ensures Consistent(OnBlogInput(a, input))
  {
  }

  lemma ClearKeepsConsistent(a: App, confirmed: bool)
    requires Consistent(a)
    ensures Consistent(OnClear(a, confirmed).app)
  {
    var r := OnClear(a, confirmed).app;
    if Trim(a.keyInput) != "" && !confirmed {
      assert r == a;
    } else {
      assert r.keyInput == "" && |Trim(r.keyInput)| == 0;
      assert r.session == Idle;
    }
  }

  lemma InitClickKeepsConsistent(a: App, coreLoaded: bool, reply: InitReply)
    requires Consistent(a)
    ensures Consistent(OnInitClick(a, coreLoaded, reply).app)
  {
  }

  lemma InitLandingKeepsConsistent(a: App, key: string, reply: InitReply)
    requires Consistent(a) && key != ""
    ensures Consistent(InitLanding(a, key, reply))
  {
  }

  lemma RestoreKeepsConsistent(a: App)
    requires Consistent(a)
    ensures Consistent(GetSavedApiKey(a).app)
  {
  }

  const WelcomePrompt := "Please enter your Google API Key and Blog URL or ID to begin."

  /** The page-load handler on a fresh page whose stored entries are
      `storage`: no session and no rows yet; the check box follows the
      stored flag, a remembered non-empty key is put into the key field,
      otherwise the welcome prompt is shown; the buttons are then refreshed. */
  function OnLoad(storage: map<string, string>, blogInput: string): (r: Step)
    ensures r.app.session == Idle && r.app.rows == [] && r.app.blogInput == blogInput
    ensures RememberSet(storage) && KeyEntry in storage && storage[KeyEntry] != "" ==>
              r.app.keyInput == storage[KeyEntry] && r.message == None
    ensures !(RememberSet(storage) && KeyEntry in storage && storage[KeyEntry] != "") ==>
              r.app.keyInput == "" && r.message == Some(WelcomePrompt)
    ensures Trim(r.app.keyInput) != "" ==> r.app.storage == storage && r.app.remember == RememberSet(storage)
  {
    var restored := GetSavedApiKey(App(Idle, "", blogInput, false, storage, []));
    if restored.key.Some? && restored.key.value != "" then
      Step(Refresh(restored.app.(keyInput := restored.key.value)), None)
    else Step(Refresh(restored.app), Some(WelcomePrompt))
  }

  /** Whatever the stored entries, the loaded page starts consistent, with
      Initialize the only remote action offered. */
  lemma LoadIsConsistent(storage: map<string, string>, blogInput: string)
    ensures Consistent(OnLoad(storage, blogInput).app)
    ensures ButtonsOf(OnLoad(storage, blogInput).app).getPostsDisabled
    ensures var a := OnLoad(storage, blogInput).app;
            !ButtonsOf(a).initDisabled <==> Trim(a.keyInput) != ""
  {
  }

  /** What the Save button does: nothing to save, or a download under a name. */
  datatype Saved = NothingToSave | Download(fileName: string)

  /** The Save handler on the local date `year`, `month` (0-based) and `day`:
      a download only when the list has rows, named after the blog field. */
  function SaveClick(a: App, year: nat, month: nat, day: nat): (r: Saved)
    requires month < 12 && 1 <= day <= 31
    ensures r.NothingToSave? <==> a.rows == []
    ensures r.Download? ==>
              var id := Identifier(a.blogInput);
              && |r.fileName| == |id| + 17 + |DateStamp(year, month, day)|
              && r.fileName[..|id|] == id
              && r.fileName[|r.fileName| - 5..] == ".html"
    ensures r.Download? ==> r.fileName == FileName(a.blogInput, year, month, day)
  {
    if |a.rows| == 0 then NothingToSave else Download(FileName(a.blogInput, year, month, day))
  }

  /** The date in a saved file's name reads back as the day it was saved:
      the year, the 1-based month and the day of the month, each as digits. */
  lemma SaveNamesTheDay(a: App, year: nat, month: nat, day: nat)
    requires month < 12 && 1 <= day <= 31
    requires a.rows != []
    ensures SaveClick(a, year, month, day).Download?
    ensures var n := SaveClick(a, year, month, day).fileName;
            var id := Identifier(a.blogInput);
            |n| == |id| + 23 + |Decimal(year)|
    ensures var n := SaveClick(a, year, month, day).fileName;
            var id := Identifier(a.blogInput);
            DateReadsBack(n[|id| + 12..|n| - 5], year, month, day)
  {
    var n := SaveClick(a, year, month, day).fileName;
    var id := Identifier(a.blogInput);
    DateStampRoundTrip(year, month, day);
    assert n[|id| + 12..|n| - 5] == DateStamp(year, month, day);
  }
}

=== FILE: exportname.dfy ===
/** The name of the exported file (Save handler of AsWebApp.7c0ccee6.js):
    `<identifier>-Posts-List-<YYYY-MM-DD>.html`, the identifier being the
    blog reference passed through a chain of rewrites. */
module ExportName {
  import opened JsText

  /** The characters `/[^a-zA-Z0-9-]/g` keeps. */
  predicate Allowed(c: char) {
    ('a' <= c <= 'z') || ('A' <= c <= 'Z') || ('0' <= c <= '9') || c == '-'
  }

  predicate AllAllowed(s: string) {
    forall i :: 0 <= i < |s| ==> Allowed(s[i])
  }

  /** `.replace(/^(https?:\/\/)/, '')`: one leading `http://` or `https://` removed. */
  function StripScheme(s: string): (r: string)
    ensures StartsWith(s, "https://") ==> r == s[8..]
    ensures StartsWith(s, "http://") ==> r == s[7..]
    ensures !HasHttpScheme(s) ==> r == s
  {
    if StartsWith(s, "https://") then
      assert s[..8][4] == 's';
      assert !StartsWith(s, "http://") by { assert s[4] != ':'; }
      s[8..]
    else if StartsWith(s, "http://") then s[7..]
    else s
  }

  /** `.replace(/\//g, '-')`: every slash becomes a hyphen, nothing else moves. */
  function SlashesToHyphens(s: string): (r: string)
    ensures |r| == |s|
    ensures forall i :: 0 <= i < |r| ==> r[i] != '/'
    ensures forall i :: 0 <= i < |s| && s[i] != '/' ==> r[i] == s[i]
    ensures forall i :: 0 <= i < |s| && s[i] == '/' ==> r[i] == '-'
  {
    seq(|s|, i requires 0 <= i < |s| => if s[i] == '/' then '-' else s[i])
  }

  /** `s` without its leading dots. */
  function DropDots(s: string): (r: string)
    ensures |r| <= |s| && r == s[|s| - |r|..]
    ensures r == [] || r[0] != '.'
    ensures forall i :: 0 <= i < |s| - |r| ==> s[i] == '.'
    ensures |s| > 0 && s[0] == '.' ==> |r| < |s|
  {
    if |s| > 0 && s[0] == '.' then DropDots(s[1..]) else s
  }

  /** No two dots are adjacent in `s`: every run of dots is a single dot. */
  predicate NoDoubleDot(s: string) {
    forall i :: 0 <= i < |s| - 1 && s[i] == '.' ==> s[i + 1] != '.'
  }

  /** `.replace(/\.+/g, '-')`: each maximal run of dots becomes one hyphen.
      On text whose runs are single dots this is a dot-for-hyphen swap;
      `CollapsePlain` and `CollapseRun` give the general case run by run. */
  function CollapseDots(s: string): (r: string)
    ensures forall i :: 0 <= i < |r| ==> r[i] != '.'
    ensures (forall i :: 0 <= i < |s| ==> s[i] != '.') ==> r == s
    decreases |s|
  {
    if s == [] then []
    else if s[0] == '.' then "-" + CollapseDots(DropDots(s))
    else [s[0]] + CollapseDots(s[1..])
  }

  /** Where every run is a single dot, each dot becomes a hyphen in place. */
  lemma {:induction false} CollapseSingleDots(s: string)
    requires NoDoubleDot(s)
    ensures |CollapseDots(s)| == |s|
    ensures forall i :: 0 <= i < |s| ==> CollapseDots(s)[i] == (if s[i] == '.' then '-' else s[i])
    decreases |s|
  {
    if s != [] {
      assert NoDoubleDot(s[1..]);
      CollapseSingleDots(s[1..]);
      if s[0] == '.' {
        assert DropDots(s) == s[1..];
      }
    }
  }

  /** Text without dots passes through unchanged in front of the rest. */
  lemma {:induction false} CollapsePlain(x: string, y: string)
    requires forall i :: 0 <= i < |x| ==> x[i] != '.'
    ensures CollapseDots(x + y) == x + CollapseDots(y)
  {
    if x != [] {
      var rest := x[1..] + y;
      ConsSplit(x, y);
      CollapsePlain(x[1..], y);
      CollapseCons(x[0], rest);
      ConsJoin(x, CollapseDots(y));
    } else {
      assert x + y == y;
    }
  }

  lemma ConsSplit(x: string, y: string)
    requires x != []
    ensures x + y == [x[0]] + (x[1..] + y)
  {
  }

  lemma ConsJoin(x: string, z: string)
    requires x != []
    ensures [x[0]] + (x[1..] + z) == x + z
  {
  }

  /** A character other than a dot is copied in front of the rest. */
  lemma CollapseCons(c: char, rest: string)
    requires c != '.'
    ensures CollapseDots([c] + rest) == [c] + CollapseDots(rest)
  {
    assert ([c] + rest)[1..] == rest;
  }

  /** A whole run of dots, however long, becomes one hyphen. */
  lemma CollapseRun(d: string, y: string)
    requires |d| > 0 && forall i :: 0 <= i < |d| ==> d[i] == '.'
    requires y == [] || y[0] != '.'
    ensures CollapseDots(d + y) == "-" + CollapseDots(y)
  {
    DotsDropped(d, y);
  }

  lemma {:induction false} DotsDropped(d: string, y: string)
    requires forall i :: 0 <= i < |d| ==> d[i] == '.'
    requires y == [] || y[0] != '.'
    ensures DropDots(d + y) == y
  {
    if d != [] {
      assert (d + y)[1..] == d[1..] + y;
      DotsDropped(d[1..], y);
    } else {
      assert d + y == y;
    }
  }

  /** `.replace(/[^a-zA-Z0-9-]/g, '')`: the allowed characters, in order. */
  function KeepAllowed(s: string): (r: string)
    ensures AllAllowed(r)
    ensures |r| <= |s|
    ensures AllAllowed(s) ==> r == s
  {
    if s == [] then []
    else (if Allowed(s[0]) then [s[0]] else []) + KeepAllowed(s[1..])
  }

  /** Every allowed character is kept as often as it occurs. */
  lemma {:induction false} KeepAllowedCounts(s: string)
    ensures forall c :: Allowed(c) ==> multiset(KeepAllowed(s))[c] == multiset(s)[c]
  {
    if s != [] {
      KeepAllowedCounts(s[1..]);
      assert s == [s[0]] + s[1..];
    }
  }

  /** The filter works piecewise, so the kept characters stay in their order:
      with `KeepAllowed([c])` being `[c]` or `[]`, this determines the result. */
  lemma {:induction false} KeepAllowedAppend(a: string, b: string)
    ensures KeepAllowed(a + b) == KeepAllowed(a) + KeepAllowed(b)
  {
    if a != [] {
      assert (a + b)[0] == a[0];
      assert (a + b)[1..] == a[1..] + b;
      KeepAllowedAppend(a[1..], b);
    } else {
      assert a + b == b;
    }
  }

  /** A single character is kept exactly when it is allowed. */
  lemma KeepAllowedOne(c: char)
    ensures KeepAllowed([c]) == if Allowed(c) then [c] else []
  {
    assert [c][1..] == [];
  }

  /** `s` without its leading hyphens. */
  function DropLeadingHyphens(s: string): (r: string)
    ensures |r| <= |s| && r == s[|s| - |r|..]
    ensures forall i :: 0 <= i < |s| - |r| ==> s[i] == '-'
    ensures r == [] || r[0] != '-'
    ensures AllAllowed(s) ==> AllAllowed(r)
  {
    if |s| > 0 && s[0] == '-' then
      var r := DropLeadingHyphens(s[1..]);
      SuffixOfTail(s, r);
      r
    else s
  }

  /** A suffix of `s[1..]` after a run of hyphens is a suffix of `s` after
      one more hyphen. */
  lemma SuffixOfTail(s: string, r: string)
    requires |s| > 0 && s[0] == '-'
    requires |r| <= |s| - 1 && r == s[1..][|s| - 1 - |r|..]
    requires forall i :: 0 <= i < |s| - 1 - |r| ==> s[1..][i] == '-'
    ensures r == s[|s| - |r|..]
    ensures forall i :: 0 <= i < |s| - |r| ==> s[i] == '-'
  {
    assert s[1..][|s| - 1 - |r|..] == s[|s| - |r|..];
    forall i | 0 <= i < |s| - |r|
      ensures s[i] == '-'
    {
      if i > 0 {
        assert s[i] == s[1..][i - 1];
      }
    }
  }

  /** `s` without its trailing hyphens. */
  function DropTrailingHyphens(s: string): (r: string)
    ensures |r| <= |s| && r == s[..|r|]
    ensures forall i :: |r| <= i < |s| ==> s[i] == '-'
    ensures r == [] || r[|r| - 1] != '-'
    ensures r != [] ==> r[0] == s[0]
    ensures AllAllowed(s) ==> AllAllowed(r)
  {
    if |s| > 0 && s[|s| - 1] == '-' then DropTrailingHyphens(s[..|s| - 1]) else s
  }

  /** Every character of `s` before position `i` and from position `j` on is a hyphen. */
  predicate HyphensOutside(s: string, i: nat, j: nat)
    requires i <= j <= |s|
  {
    (forall k :: 0 <= k < i ==> s[k] == '-') && (forall k :: j <= k < |s| ==> s[k] == '-')
  }

  /** `.replace(/^-+|-+$/g, '')`: the leading and the trailing run of hyphens removed. */
  function TrimHyphens(s: string): (r: string)
    ensures |r| <= |s|
    ensures r == [] || (r[0] != '-' && r[|r| - 1] != '-')
    ensures exists i, j :: 0 <= i <= j <= |s| && r == s[i..j] && HyphensOutside(s, i, j)
    ensures r == [] <==> forall k :: 0 <= k < |s| ==> s[k] == '-'
    ensures AllAllowed(s) ==> AllAllowed(r)
    ensures s == [] || (s[0] != '-' && s[|s| - 1] != '-') ==> r == s
  {
    HyphenEnds(s);
    DropTrailingHyphens(DropLeadingHyphens(s))
  }

  /** The two drops remove a run of hyphens at each end and keep the middle. */
  lemma HyphenEnds(s: string)
    ensures var r := DropTrailingHyphens(DropLeadingHyphens(s));
            exists i, j :: 0 <= i <= j <= |s| && r == s[i..j] && HyphensOutside(s, i, j)
    ensures DropTrailingHyphens(DropLeadingHyphens(s)) == [] <==> forall k :: 0 <= k < |s| ==> s[k] == '-'
  {
    HyphenSlice(s);
    HyphenAllGone(s);
  }

  lemma HyphenSlice(s: string)
    ensures var r := DropTrailingHyphens(DropLeadingHyphens(s));
            exists i, j :: 0 <= i <= j <= |s| && r == s[i..j] && HyphensOutside(s, i, j)
  {
    var t := DropLeadingHyphens(s);
    var r := DropTrailingHyphens(t);
    FramedSlice(s, t, r, |s| - |t|);
  }

  /** A prefix `r` of a suffix `t` of `s`, with hyphens cut on both sides, is a framed slice. */
  lemma FramedSlice(s: string, t: string, r: string, i: nat)
    requires i <= |s| && t == s[i..] && |r| <= |t| && r == t[..|r|]
    requires forall k :: 0 <= k < i ==> s[k] == '-'
    requires forall k :: |r| <= k < |t| ==> t[k] == '-'
    ensures exists i', j :: 0 <= i' <= j <= |s| && r == s[i'..j] && HyphensOutside(s, i', j)
  {
    var j := i + |r|;
    MiddleSlice(s, t, r, i);
    TailHyphens(s, t, r, i);
    assert r == s[i..j] && HyphensOutside(s, i, j);
  }

  lemma HyphenAllGone(s: string)
    ensures DropTrailingHyphens(DropLeadingHyphens(s)) == [] <==> forall k :: 0 <= k < |s| ==> s[k] == '-'
  {
    if forall k :: 0 <= k < |s| ==> s[k] == '-' {
      EmptyWhenAllHyphens(s);
    }
    if DropTrailingHyphens(DropLeadingHyphens(s)) == [] {
      AllHyphensWhenEmpty(s);
    }
  }

  lemma EmptyWhenAllHyphens(s: string)
    requires forall k :: 0 <= k < |s| ==> s[k] == '-'
    ensures DropTrailingHyphens(DropLeadingHyphens(s)) == []
  {
  }

  /** Nothing is left only when the leading run took everything: a
      non-empty remainder would start with a character other than `-`. */
  lemma AllHyphensWhenEmpty(s: string)
    requires DropTrailingHyphens(DropLeadingHyphens(s)) == []
    ensures forall k :: 0 <= k < |s| ==> s[k] == '-'
  {
    var t := DropLeadingHyphens(s);
    assert |t| == 0;
  }

  lemma TailHyphens(s: string, t: string, r: string, i: nat)
    requires i <= |s| && t == s[i..] && |r| <= |t|
    requires forall k :: |r| <= k < |t| ==> t[k] == '-'
    ensures forall k :: i + |r| <= k < |s| ==> s[k] == '-'
  {
    forall k | i + |r| <= k < |s|
      ensures s[k] == '-'
    {
      assert s[k] == t[k - i];
    }
  }

  lemma MiddleSlice(s: string, t: string, r: string, i: nat)
    requires i <= |s| && t == s[i..] && |r| <= |t| && r == t[..|r|]
    ensures r == s[i..i + |r|]
  {
    forall k | 0 <= k < |r|
      ensures r[k] == s[i + k]
    {
      assert r[k] == t[k];
    }
  }

  const MaxLength := 50
  const Fallback := "unknown-blog"

  /** `.substring(0, 50)`. */
  function Truncate(s: string): (r: string)
    ensures |r| <= MaxLength
    ensures |s| <= MaxLength ==> r == s
    ensures |s| > MaxLength ==> r == s[..MaxLength]
    ensures AllAllowed(s) ==> AllAllowed(r)
    ensures r != [] ==> r[0] == s[0]
    ensures r == [] <==> s == []
  {
    if |s| <= MaxLength then s else s[..MaxLength]
  }

  /** The rewrites up to the removal of disallowed characters. */
  function Cleaned(input: string): (r: string)
    ensures AllAllowed(r)
  {
    KeepAllowed(CollapseDots(SlashesToHyphens(StripScheme(Trim(input)))))
  }

  /** The identifier part of the file name, before the fallback. */
  function Sanitised(input: string): (r: string)
    ensures AllAllowed(r) && |r| <= MaxLength
    ensures r == [] || r[0] != '-'
    ensures var c := Cleaned(input); r == [] <==> forall k :: 0 <= k < |c| ==> c[k] == '-'
  {
    Truncate(TrimHyphens(Cleaned(input)))
  }

  /** `blogIdentifierForFile`: only letters, digits and hyphens, at most 50
      characters, never empty (the placeholder replaces an empty result), and
      never starting with a hyphen. The hyphens are trimmed before the
      truncation, so the result may end with one. */
  function Identifier(input: string): (r: string)
    ensures AllAllowed(r)
    ensures 0 < |r| <= MaxLength
    ensures r[0] != '-'
    ensures Sanitised(input) != "" ==> r == Sanitised(input)
    ensures Sanitised(input) == "" ==> r == Fallback
  {
    var s := Sanitised(input);
    FallbackIsClean();
    if s == "" then Fallback else s
  }

  lemma FallbackIsClean()
    ensures AllAllowed(Fallback) && 0 < |Fallback| <= MaxLength && Fallback[0] != '-'
    ensures Fallback[|Fallback| - 1] != '-'
  {
  }

  // ---------------------------------------------------------------------
  // A string that is already a clean identifier passes every rewrite.

  lemma AllowedIsNotSpace(c: char)
    requires Allowed(c)
    ensures !IsSpace(c)
  {
  }

  lemma AllowedHasNoScheme(s: string)
    requires AllAllowed(s)
    ensures !HasHttpScheme(s)
  {
    if |s| >= 7 {
      assert Allowed(s[4]) && s[..7][4] == s[4];
    }
    if |s| >= 8 {
      assert Allowed(s[5]) && s[..8][5] == s[5];
    }
  }

  lemma AllowedTrims(s: string)
    requires AllAllowed(s)
    ensures Trim(s) == s
  {
    if s != [] {
      AllowedIsNotSpace(s[0]);
      AllowedIsNotSpace(s[|s| - 1]);
    }
    TrimOfTrimmed(s);
  }

  lemma {:induction false} RewritesKeepAllowed(s: string)
    requires AllAllowed(s)
    ensures Cleaned(s) == s
  {
    AllowedTrims(s);
    AllowedHasNoScheme(s);
    assert StripScheme(s) == s;
    assert SlashesToHyphens(s) == s;
    assert forall i :: 0 <= i < |s| ==> s[i] != '.';
    assert CollapseDots(s) == s;
  }

  /** A clean identifier passes the whole chain unchanged unless it ends
      with a hyphen, which the second pass trims. */
  lemma CleanIdentifierFixedPoint(r: string)
    requires AllAllowed(r) && 0 < |r| <= MaxLength && r[0] != '-'
    ensures Identifier(r) == r <==> r[|r| - 1] != '-'
  {
    if r[|r| - 1] != '-' {
      CleanIsKept(r);
    } else {
      TrailingHyphenIsTrimmed(r);
    }
  }

  lemma CleanIsKept(r: string)
    requires AllAllowed(r) && 0 < |r| <= MaxLength && r[0] != '-' && r[|r| - 1] != '-'
    ensures Identifier(r) == r
  {
    SanitisedOfClean(r);
  }

  lemma TrailingHyphenIsTrimmed(r: string)
    requires AllAllowed(r) && 0 < |r| <= MaxLength && r[|r| - 1] == '-'
    ensures Identifier(r) != r
  {
    FallbackIsClean();
    var t := TrimHyphens(Cleaned(r));
    RewritesKeepAllowed(r);
    assert t == TrimHyphens(r);
    assert Sanitised(r) == t;
  }

  /** Feeding the identifier back through the rewrites gives it back exactly
      when it does not end with a hyphen; an identifier cut just after a
      hyphen loses that hyphen on a second pass. */
  lemma IdentifierFixedPoint(input: string)
    ensures var r := Identifier(input);
            Identifier(r) == r <==> r[|r| - 1] != '-'
  {
    CleanIdentifierFixedPoint(Identifier(input));
  }

  /** A clean reference longer than the limit, with no hyphen at either end,
      is cut at the limit whatever character lands last. */
  lemma {:induction false} LongCleanIsCut(s: string)
    requires AllAllowed(s) && |s| > MaxLength && s[0] != '-' && s[|s| - 1] != '-'
    ensures Identifier(s) == s[..MaxLength]
  {
    SanitisedOfClean(s);
  }

  lemma SanitisedOfClean(s: string)
    requires AllAllowed(s) && (s == [] || (s[0] != '-' && s[|s| - 1] != '-'))
    ensures Sanitised(s) == Truncate(s)
  {
    RewritesKeepAllowed(s);
  }

  /** A trailing hyphen survives: 49 letters, a hyphen and one more letter
      are cut just after the hyphen. */
  lemma TrailingHyphenSurvives(a: string)
    requires |a| == 49 && forall i :: 0 <= i < |a| ==> 'a' <= a[i] <= 'z'
    ensures Identifier(a + "-b") == a + "-"
  {
    var s := a + "-b";
    LettersThenHyphen(a);
    LongCleanIsCut(s);
    assert s[..50] == a + "-";
  }

  lemma LettersThenHyphen(a: string)
    requires |a| == 49 && forall i :: 0 <= i < |a| ==> 'a' <= a[i] <= 'z'
    ensures var s := a + "-b"; AllAllowed(s) && |s| > MaxLength && s[0] != '-' && s[|s| - 1] != '-'
  {
    var s := a + "-b";
    forall i | 0 <= i < |s|
      ensures Allowed(s[i])
    {
      if i < 49 {
        assert s[i] == a[i];
      }
    }
  }

  // ---------------------------------------------------------------------
  // The date part: `getFullYear() + '-' + MM + '-' + DD`.

  function DigitChar(d: nat): (c: char)
    requires d < 10
    ensures IsDigit(c)
  {
    (('0' as int) + d) as char
  }

  predicate AllDigitChars(s: string) {
    forall i :: 0 <= i < |s| ==> IsDigit(s[i])
  }

  /** `n.toString()` for a non-negative integer: its decimal digits, no leading zero. */
  function Decimal(n: nat): (r: string)
    ensures |r| >= 1 && AllDigitChars(r)
    ensures |r| > 1 ==> r[0] != '0'
  {
    if n < 10 then [DigitChar(n)] else Decimal(n / 10) + [DigitChar(n % 10)]
  }

  /** The number a string of decimal digits denotes. */
  function DigitsValue(s: string): nat
    requires AllDigitChars(s)
  {
    if s == [] then 0 else DigitsValue(s[..|s| - 1]) * 10 + ((s[|s| - 1] as int) - ('0' as int))
  }

  /** Reading the decimal text back gives the number. */
  lemma {:induction false} DecimalRoundTrip(n: nat)
    ensures DigitsValue(Decimal(n)) == n
  {
    if n >= 10 {
      DecimalRoundTrip(n / 10);
      var r := Decimal(n);
      assert r[..|r| - 1] == Decimal(n / 10);
    }
  }

  /** `.padStart(2, '0')`. */
  function PadStart2(s: string): (r: string)
    ensures |r| == if |s| >= 2 then |s| else 2
    ensures r[|r| - |s|..] == s
    ensures forall i :: 0 <= i < |r| - |s| ==> r[i] == '0'
  {
    if |s| >= 2 then s else seq(2 - |s|, _ => '0') + s
  }

  /** Two-digit rendering of 1..99 that reads back as the number. */
  lemma TwoDigits(n: nat)
    requires 1 <= n < 100
    ensures var r := PadStart2(Decimal(n));
            |r| == 2 && AllDigitChars(r) && DigitsValue(r) == n
  {
    DecimalRoundTrip(n);
    var d := Decimal(n);
    if n < 10 {
      var r := PadStart2(d);
      assert r == ['0', d[0]];
      assert r[..1] == ['0'];
    } else {
      assert |Decimal(n / 10)| == 1;
    }
  }

  /** `formattedDateYYYYMMDD` for the local date `year`, `month` (0-based, as
      `getMonth`) and `day`. */
  function DateStamp(year: nat, month: nat, day: nat): string
    requires month < 12 && 1 <= day <= 31
  {
    Decimal(year) + "-" + PadStart2(Decimal(month + 1)) + "-" + PadStart2(Decimal(day))
  }

  lemma JoinedDate(y: string, mm: string, dd: string)
    requires |mm| == 2 && |dd| == 2
    ensures var r := y + "-" + mm + "-" + dd;
            && |r| == |y| + 6 && r[|y|] == '-' && r[|y| + 3] == '-'
            && r[..|y|] == y && r[|y| + 1..|y| + 3] == mm && r[|y| + 4..] == dd
  {
    var r := y + "-" + mm + "-" + dd;
    assert r == (y + "-") + (mm + "-" + dd);
    assert r[|y| + 1..] == mm + "-" + dd;
  }

  lemma FourDigitYear(year: nat)
    requires 1000 <= year <= 9999
    ensures |Decimal(year)| == 4
  {
    assert |Decimal(year / 10 / 10 / 10)| == 1;
    assert |Decimal(year / 10 / 10)| == 2;
    assert |Decimal(year / 10)| == 3;
  }

  /** `d` splits at two hyphens into the digits of `year`, of `month + 1`
      and of `day`, in that order. */
  predicate DateReadsBack(d: string, year: nat, month: nat, day: nat) {
    var y := |Decimal(year)|;
    && |d| == y + 6 && d[y] == '-' && d[y + 3] == '-'
    && AllDigitChars(d[..y]) && DigitsValue(d[..y]) == year
    && AllDigitChars(d[y + 1..y + 3]) && DigitsValue(d[y + 1..y + 3]) == month + 1
    && AllDigitChars(d[y + 4..]) && DigitsValue(d[y + 4..]) == day
  }

  /** The date text splits at two hyphens into the year, a two-digit month
      (1-based) and a two-digit day, each reading back as its number; a
      four-digit year gives the ten-character `YYYY-MM-DD`. */
  lemma DateStampRoundTrip(year: nat, month: nat, day: nat)
    requires month < 12 && 1 <= day <= 31
    ensures DateReadsBack(DateStamp(year, month, day), year, month, day)
    ensures 1000 <= year <= 9999 ==> |DateStamp(year, month, day)| == 10
  {
    YearReadsBack(year, month, day);
    MonthReadsBack(year, month, day);
    DayReadsBack(year, month, day);
    if 1000 <= year <= 9999 {
      FourDigitYear(year);
    }
  }

  /** The shape of the date text, with its three parts named. */
  lemma DateShape(year: nat, month: nat, day: nat)
    requires month < 12 && 1 <= day <= 31
    ensures var y := Decimal(year);
            var mm := PadStart2(Decimal(month + 1));
            var dd := PadStart2(Decimal(day));
            var r := DateStamp(year, month, day);
            && |mm| == 2 && |dd| == 2
            && |r| == |y| + 6 && r[|y|] == '-' && r[|y| + 3] == '-'
            && r[..|y|] == y && r[|y| + 1..|y| + 3] == mm && r[|y| + 4..] == dd
  {
    var y := Decimal(year);
    var mm := PadStart2(Decimal(month + 1));
    var dd := PadStart2(Decimal(day));
    ShortDecimal(month + 1);
    ShortDecimal(day);
    JoinedDate(y, mm, dd);
  }

  lemma ShortDecimal(n: nat)
    requires n < 100
    ensures |Decimal(n)| <= 2
  {
    if n >= 10 {
      assert |Decimal(n / 10)| == 1;
    }
  }

  lemma YearReadsBack(year: nat, month: nat, day: nat)
    requires month < 12 && 1 <= day <= 31
    ensures var r := DateStamp(year, month, day);
            var y := |Decimal(year)|;
            |r| == y + 6 && r[y] == '-' && r[y + 3] == '-'
            && AllDigitChars(r[..y]) && DigitsValue(r[..y]) == year
  {
    DateShape(year, month, day);
    DecimalRoundTrip(year);
  }

  lemma MonthReadsBack(year: nat, month: nat, day: nat)
    requires month < 12 && 1 <= day <= 31
    ensures var r := DateStamp(year, month, day);
            var y := |Decimal(year)|;
            |r| == y + 6 && AllDigitChars(r[y + 1..y + 3]) && DigitsValue(r[y + 1..y + 3]) == month + 1
  {
    DateShape(year, month, day);
    TwoDigits(month + 1);
  }

  lemma DayReadsBack(year: nat, month: nat, day: nat)
    requires month < 12 && 1 <= day <= 31
    ensures var r := DateStamp(year, month, day);
            var y := |Decimal(year)|;
            |r| == y + 6 && AllDigitChars(r[y + 4..]) && DigitsValue(r[y + 4..]) == day
  {
    DateShape(year, month, day);
    TwoDigits(day);
  }

  /** The download name: identifier, the fixed middle, the date and `.html`. */
  function FileName(input: string, year: nat, month: nat, day: nat): (r: string)
    requires month < 12 && 1 <= day <= 31
    ensures var id := Identifier(input);
            && |r| == |id| + 17 + |DateStamp(year, month, day)|
            && r[..|id|] == id
            && r[|id|..|id| + 12] == "-Posts-List-"
            && r[|id| + 12..|r| - 5] == DateStamp(year, month, day)
            && r[|r| - 5..] == ".html"
  {
    var id := Identifier(input);
    var date := DateStamp(year, month, day);
    Pieces(id, "-Posts-List-", date, ".html");
    id + "-Posts-List-" + date + ".html"
  }

  /** Where the four pieces of a joined string sit. */
  lemma Pieces(a: string, b: string, c: string, d: string)
    ensures var r := a + b + c + d;
            && |r| == |a| + |b| + |c| + |d|
            && r[..|a|] == a
            && r[|a|..|a| + |b|] == b
            && r[|a| + |b|..|r| - |d|] == c
            && r[|r| - |d|..] == d
  {
    var r := a + b + c + d;
    assert r == a + (b + c + d);
    assert (b + c + d) == b + (c + d);
    assert r[|a|..] == b + (c + d);
    assert r[|a|..][..|b|] == b;
    assert r[|a| + |b|..] == c + d;
    assert r[|a| + |b|..][..|c|] == c;
  }

  // ---------------------------------------------------------------------
  // A blog address worked through the rewrites step by step.

  const ExampleAddress := "https://my.blog.com/"
  const ExampleIdentifier := "my-blog-com"

  /** The address of a blog becomes its host name with hyphens for dots:
      each step is read off the general contracts above. */
  lemma ExampleAddressIdentifier()
    ensures Identifier(ExampleAddress) == ExampleIdentifier
  {
    var d := "my-blog-com-";
    ExampleCleaned(d);
    ExampleHyphensTrimmed(d, ExampleIdentifier);
    assert Sanitised(ExampleAddress) == ExampleIdentifier;
  }

  lemma ExampleCleaned(d: string)
    requires d == "my-blog-com-"
    ensures Cleaned(ExampleAddress) == d
  {
    var a := ExampleAddress;
    TrimOfTrimmed(a);
    var b := "my.blog.com/";
    ExampleSchemeStripped(a, b);
    var c := "my.blog.com-";
    ExampleSlashReplaced(b, c);
    ExampleDotsReplaced(c, d);
    ExampleAllKept(d);
  }

  lemma ExampleAllKept(d: string)
    requires d == "my-blog-com-"
    ensures KeepAllowed(d) == d
  {
    assert AllAllowed(d);
  }

  lemma ExampleSchemeStripped(a: string, b: string)
    requires a == ExampleAddress && b == "my.blog.com/"
    ensures StripScheme(a) == b
  {
    assert StartsWith(a, "https://");
    assert a[8..] == b;
  }

  lemma ExampleSlashReplaced(b: string, c: string)
    requires b == "my.blog.com/" && c == "my.blog.com-"
    ensures SlashesToHyphens(b) == c
  {
    var r := SlashesToHyphens(b);
    forall i | 0 <= i < |c|
      ensures r[i] == c[i]
    {
      if i < |b| - 1 {
        assert b[i] != '/';
      } else {
        assert b[i] == '/';
      }
    }
  }

  lemma ExampleDotsReplaced(c: string, d: string)
    requires c == "my.blog.com-" && d == "my-blog-com-"
    ensures CollapseDots(c) == d
  {
    ExampleSingleDots(c);
    CollapseSingleDots(c);
    ExampleSwap(c, d, CollapseDots(c));
  }

  lemma ExampleSingleDots(c: string)
    requires c == "my.blog.com-"
    ensures NoDoubleDot(c)
  {
  }

  lemma ExampleSwap(c: string, d: string, r: string)
    requires c == "my.blog.com-" && d == "my-blog-com-"
    requires |r| == |c| && forall i :: 0 <= i < |c| ==> r[i] == (if c[i] == '.' then '-' else c[i])
    ensures r == d
  {
    forall i | 0 <= i < |d|
      ensures r[i] == d[i]
    {
    }
  }

  lemma ExampleHyphensTrimmed(d: string, e: string)
    requires d == "my-blog-com-" && e == "my-blog-com"
    ensures TrimHyphens(d) == e
  {
    var r := TrimHyphens(d);
    var i, j :| 0 <= i <= j <= |d| && r == d[i..j] && HyphensOutside(d, i, j);
    assert d[0] != '-' && d[10] != '-' && d[11] == '-';
    assert i == 0 && j > 10;
    assert r[|r| - 1] == d[j - 1];
    assert j == 11;
    assert r == d[..|d| - 1];
  }
}

=== FILE: getposts.dfy ===
/** The Get-Posts handler of the current build (AsWebApp.7c0ccee6.js): the
    session check, normalisation and routing of the blog reference, the id
    lookup, the listing, and the rendering of the result. */
module GetPosts {
  import opened Outcome
  import opened JsText
  import opened Remote
  import opened ClientSession
  import opened BlogRef
  import opened Render
  import opened Listing
  import opened Controls

  /** What the handler ends with on the page besides the rows: a rejection
      before any work, a failure of the lookup or the listing, the "no posts"
      notice, or the number of posts listed. */
  datatype Shown = Rejected(text: string) | Failed(text: string) | NoPosts | Listed(count: nat)

  datatype Clicked = Clicked(app: App, shown: Shown)

  /** The replies the handler's remote calls settle with: the lookup's reply
      and the listing's rounds, each with the session its guard sees. The
      lookup's guard runs in the same turn as the handler's session check, so
      it sees the click's session and needs no entry here. */
  datatype Replies = Replies(lookup: BlogReply, pages: seq<Turn>)

  /** When the reference is used as the id directly, nothing is awaited
      between the handler's session check and the guard of the listing's
      first round: that round sees the session of the click. After a lookup
      the first round comes after an `await`, so its session is free. */
  predicate FirstRoundNow(a: App, replies: Replies) {
    RouteOf(Trim(a.blogInput)).ById? && replies.pages != [] ==> replies.pages[0].session == a.session
  }

  const NotReadyPrompt := "Please initialize the Google API Client with your API Key first."
  const MissingInputPrompt := "Please ensure both Blog URL/ID and Google API Key are entered."

  /** The blog id to list from: the reference itself when it is all digits,
      otherwise the lookup's answer for the normalised URL. */
  function BlogIdFor(ref: string, key: string, s: Session, lookup: BlogReply): (r: Result<string, Failure>)
    ensures AllDigits(ref) ==> r == Ok(ref)
    ensures ref != "" && !AllDigits(ref) ==> r == GetBlogIdFromUrl(s, key, lookup)
  {
    RouteCases(ref);
    match RouteOf(ref)
    case ById(id) => Ok(id)
    case ByUrl(_) => GetBlogIdFromUrl(s, key, lookup)
  }

  /** The result of a successful listing on the page. */
  function Show(a: App, posts: seq<Post>): (r: Clicked)
    ensures posts == [] ==> r.app.rows == [NoPostsNotice] && r.shown == NoPosts
    ensures posts != [] ==> r.app.rows == Rows(SortByPublished(posts)) && r.shown == Listed(|posts|)
    ensures r.app == Refresh(a.(rows := r.app.rows))
  {
    if posts == [] then Clicked(Refresh(a.(rows := [NoPostsNotice])), NoPosts)
    else Clicked(Refresh(a.(rows := Rows(SortByPublished(posts)))), Listed(|posts|))
  }

  /** The work inside the handler's `try`, after the checks: the reference
      normalised (and written back to the field when it changed), the id
      found, the posts listed. Any failure shows "Error: " and its text. */
  function Fetch(a: App, replies: Replies): (r: Clicked)
    requires EndsFrom(replies.pages, Trim(a.keyInput), 0) && FirstRoundNow(a, replies)
    ensures r.app.session == a.session && r.app.keyInput == a.keyInput
    ensures var ref := Trim(a.blogInput);
            r.app.blogInput == if Normalise(ref) != ref then Normalise(ref) else a.blogInput
    ensures r.shown.Rejected? == false
    ensures Trim(a.keyInput) != "" ==> r.app.remember == a.remember && r.app.storage == a.storage
    ensures r.shown.Failed? ==> r.app.rows == a.rows
    ensures r.shown.Listed? ==>
              var listed := ListAllPosts(Trim(a.keyInput), replies.pages);
              && listed.Ok? && listed.value != []
              && r.app.rows == Rows(SortByPublished(listed.value)) && r.shown.count == |listed.value|
    ensures var id := BlogIdFor(Trim(a.blogInput), Trim(a.keyInput), a.session, replies.lookup);
            id.Err? ==> r.shown == Failed("Error: " + FailureText(id.error))
    ensures var id := BlogIdFor(Trim(a.blogInput), Trim(a.keyInput), a.session, replies.lookup);
            var listed := ListAllPosts(Trim(a.keyInput), replies.pages);
            id.Ok? && listed.Err? ==> r.shown == Failed("Error: " + FailureText(listed.error))
    ensures var id := BlogIdFor(Trim(a.blogInput), Trim(a.keyInput), a.session, replies.lookup);
            var listed := ListAllPosts(Trim(a.keyInput), replies.pages);
            id.Ok? && listed.Ok? && listed.value == [] ==> r.shown == NoPosts && r.app.rows == [NoPostsNotice]
    ensures var id := BlogIdFor(Trim(a.blogInput), Trim(a.keyInput), a.session, replies.lookup);
            var listed := ListAllPosts(Trim(a.keyInput), replies.pages);
            id.Ok? && listed.Ok? && listed.value != [] ==>
              r.shown == Listed(|listed.value|) && r.app.rows == Rows(SortByPublished(listed.value))
  {
    var ref := Trim(a.blogInput);
    var key := Trim(a.keyInput);
    var b := if Normalise(ref) != ref then a.(blogInput := Normalise(ref)) else a;
    match BlogIdFor(ref, key, a.session, replies.lookup)
    case Err(f) => Clicked(Refresh(b), Failed("Error: " + FailureText(f)))
    case Ok(_) =>
      match ListAllPosts(key, replies.pages)
      case Err(f) => Clicked(Refresh(b), Failed("Error: " + FailureText(f)))
      case Ok(posts) => Show(b, posts)
  }

  /** The Get-Posts click handler. The list is emptied first; the session
      check comes before the check of the fields; the buttons are refreshed
      at the end. */
  function GetPostsClick(a: App, replies: Replies): (r: Clicked)
    requires EndsFrom(replies.pages, Trim(a.keyInput), 0) && FirstRoundNow(a, replies)
    ensures !Authorised(a.session, Trim(a.keyInput)) ==>
              r == Clicked(Refresh(a.(rows := [])), Rejected(NotReadyPrompt))
    ensures Authorised(a.session, Trim(a.keyInput)) && (Trim(a.blogInput) == "" || Trim(a.keyInput) == "") ==>
              r == Clicked(Refresh(a.(rows := [])), Rejected(MissingInputPrompt))
    ensures r.app.session == a.session && r.app.keyInput == a.keyInput
    ensures !r.shown.Rejected? ==> r == Fetch(a.(rows := []), replies)
  {
    var cleared := a.(rows := []);
    var key := Trim(a.keyInput);
    if !(a.session.ready && key == a.session.activeKey) then Clicked(Refresh(cleared), Rejected(NotReadyPrompt))
    else if |Trim(a.blogInput)| == 0 || |key| == 0 then Clicked(Refresh(cleared), Rejected(MissingInputPrompt))
    else Fetch(cleared, replies)
  }

  /** The handler does any work exactly when its button is enabled. */
  lemma RejectedIffButtonDisabled(a: App, replies: Replies)
    requires EndsFrom(replies.pages, Trim(a.keyInput), 0) && FirstRoundNow(a, replies)
    ensures GetPostsClick(a, replies).shown.Rejected? <==> ButtonsOf(a).getPostsDisabled
  {
  }

  /** An all-digit reference is used as the blog id directly: the lookup's
      reply makes no difference, and the field keeps its text. */
  lemma DigitsAreNeverResolved(a: App, replies: Replies, lookup: BlogReply)
    requires EndsFrom(replies.pages, Trim(a.keyInput), 0) && FirstRoundNow(a, replies)
    requires AllDigits(Trim(a.blogInput))
    ensures GetPostsClick(a, replies.(lookup := lookup)) == GetPostsClick(a, replies)
    ensures GetPostsClick(a, replies).app.blogInput == a.blogInput
  {
    var other := replies.(lookup := lookup);
    if Authorised(a.session, Trim(a.keyInput)) && Trim(a.blogInput) != "" && Trim(a.keyInput) != "" {
      FetchIgnoresLookupForDigits(a.(rows := []), replies, other);
    }
  }

  lemma FetchIgnoresLookupForDigits(a: App, replies: Replies, other: Replies)
    requires EndsFrom(replies.pages, Trim(a.keyInput), 0) && FirstRoundNow(a, replies)
    requires AllDigits(Trim(a.blogInput)) && other.pages == replies.pages
    ensures Fetch(a, other) == Fetch(a, replies)
    ensures Fetch(a, replies).app.blogInput == a.blogInput
  {
    var ref := Trim(a.blogInput);
    assert BlogIdFor(ref, Trim(a.keyInput), a.session, other.lookup) == BlogIdFor(ref, Trim(a.keyInput), a.session, replies.lookup);
  }

  /** A reference without a scheme that is not all digits is written back to
      the field with `https://` in front, whatever happens next. */
  lemma SchemeAddedToField(a: App, replies: Replies)
    requires EndsFrom(replies.pages, Trim(a.keyInput), 0) && FirstRoundNow(a, replies)
    requires Authorised(a.session, Trim(a.keyInput)) && Trim(a.keyInput) != ""
    requires Trim(a.blogInput) != "" && !HasHttpScheme(Trim(a.blogInput)) && !AllDigits(Trim(a.blogInput))
    ensures GetPostsClick(a, replies).app.blogInput == "https://" + Trim(a.blogInput)
  {
    var ref := Trim(a.blogInput);
    assert Normalise(ref) != ref by {
      assert |Normalise(ref)| == |ref| + 8;
    }
  }

  /** A listing that succeeds with posts shows one item row per post,
      newest first, and reports how many there were. */
  lemma ListedShowsEveryPost(a: App, replies: Replies, posts: seq<Post>)
    requires EndsFrom(replies.pages, Trim(a.keyInput), 0) && FirstRoundNow(a, replies)
    requires Authorised(a.session, Trim(a.keyInput)) && Trim(a.keyInput) != "" && Trim(a.blogInput) != ""
    requires BlogIdFor(Trim(a.blogInput), Trim(a.keyInput), a.session, replies.lookup).Ok?
    requires ListAllPosts(Trim(a.keyInput), replies.pages) == Ok(posts) && posts != []
    ensures GetPostsClick(a, replies).shown == Listed(|posts|)
    ensures var items := ItemsOnly(GetPostsClick(a, replies).app.rows);
            var sorted := SortByPublished(posts);
            |items| == |posts| && forall i :: 0 <= i < |items| ==> items[i] == ItemRow(sorted[i])
  {
    ClickListsPosts(a, replies, posts);
    ItemsOfRows(GetPostsClick(a, replies).app.rows, SortByPublished(posts));
  }

  lemma ItemsOfRows(rows: seq<Row>, sorted: seq<Post>)
    requires rows == Rows(sorted)
    ensures |ItemsOnly(rows)| == |sorted|
    ensures forall i :: 0 <= i < |sorted| ==> ItemsOnly(rows)[i] == ItemRow(sorted[i])
  {
    RowsHaveOneItemPerPost(sorted);
  }

  lemma ClickListsPosts(a: App, replies: Replies, posts: seq<Post>)
    requires EndsFrom(replies.pages, Trim(a.keyInput), 0) && FirstRoundNow(a, replies)
    requires Authorised(a.session, Trim(a.keyInput)) && Trim(a.keyInput) != "" && Trim(a.blogInput) != ""
    requires BlogIdFor(Trim(a.blogInput), Trim(a.keyInput), a.session, replies.lookup).Ok?
    requires ListAllPosts(Trim(a.keyInput), replies.pages) == Ok(posts) && posts != []
    ensures GetPostsClick(a, replies).shown == Listed(|posts|)
    ensures GetPostsClick(a, replies).app.rows == Rows(SortByPublished(posts))
  {
    var cleared := a.(rows := []);
    assert FirstRoundNow(cleared, replies);
    assert GetPostsClick(a, replies) == Fetch(cleared, replies);
    FetchListsPosts(cleared, replies, posts);
  }

  lemma FetchListsPosts(a: App, replies: Replies, posts: seq<Post>)
    requires EndsFrom(replies.pages, Trim(a.keyInput), 0) && FirstRoundNow(a, replies)
    requires BlogIdFor(Trim(a.blogInput), Trim(a.keyInput), a.session, replies.lookup).Ok?
    requires ListAllPosts(Trim(a.keyInput), replies.pages) == Ok(posts) && posts != []
    ensures Fetch(a, replies).shown == Listed(|posts|)
    ensures Fetch(a, replies).app.rows == Rows(SortByPublished(posts))
  {
  }

  /** While the listing waits for a page, an `init` still in flight from an
      earlier Initialize click can settle and leave the session unauthorised
      (the handler's own controls are disabled meanwhile). On an all-digit
      reference the first round is authorised, since it runs in the click's
      turn; when the next round's guard refuses, the listing fails with the
      "not initialized" text, the page already gathered is lost, and no rows
      are shown. */
  lemma StaleSessionFailsListing(a: App, replies: Replies)
    requires EndsFrom(replies.pages, Trim(a.keyInput), 0) && FirstRoundNow(a, replies)
    requires Authorised(a.session, Trim(a.keyInput)) && Trim(a.keyInput) != ""
    requires AllDigits(Trim(a.blogInput))
    requires |replies.pages| >= 2 && !LastReply(replies.pages[0].reply)
    requires !Authorised(replies.pages[1].session, Trim(a.keyInput))
    ensures GetPostsClick(a, replies).shown == Failed("Error: " + FailureText(NotInitialized))
    ensures GetPostsClick(a, replies).app.rows == []
  {
    var key := Trim(a.keyInput);
    var cleared := a.(rows := []);
    RouteCases(Trim(a.blogInput));
    assert GetPostsClick(a, replies) == Fetch(cleared, replies);
    StaleListing(key, replies.pages);
    assert BlogIdFor(Trim(a.blogInput), key, a.session, replies.lookup).Ok?;
  }

  /** An authorised first page with a token, then a refused guard. */
  lemma StaleListing(key: string, pages: seq<Turn>)
    requires |pages| >= 2 && Authorised(pages[0].session, key) && !LastReply(pages[0].reply)
    requires !Authorised(pages[1].session, key)
    ensures EndsFrom(pages, key, 0)
    ensures ListAllPosts(key, pages) == Err(NotInitialized)
  {
    assert Halts(pages[1], key);
    var items := pages[0].reply.result.value.items.value;
    assert ListFrom(key, pages, 1, [] + items) == Err(NotInitialized);
  }

  /** The handler keeps the state consistent. */
  lemma GetPostsKeepsConsistent(a: App, replies: Replies)
    requires EndsFrom(replies.pages, Trim(a.keyInput), 0) && FirstRoundNow(a, replies)
    requires Consistent(a)
    ensures Consistent(GetPostsClick(a, replies).app)
  {
    var b := GetPostsClick(a, replies).app;
    if Trim(a.keyInput) == "" {
      EmptyKeyRejected(a, replies);
      RefreshedConsistent(a, b);
    } else {
      ClickKeepsStorage(a, replies);
      KeptFieldsConsistent(a, b);
    }
  }

  /** Without a key the session check rejects the click. */
  lemma EmptyKeyRejected(a: App, replies: Replies)
    requires EndsFrom(replies.pages, Trim(a.keyInput), 0) && FirstRoundNow(a, replies)
    requires Consistent(a) && Trim(a.keyInput) == ""
    ensures GetPostsClick(a, replies).app == Refresh(a.(rows := []))
  {
    assert !Authorised(a.session, Trim(a.keyInput));
  }

  /** With a key in the field the click leaves storage and the box alone. */
  lemma ClickKeepsStorage(a: App, replies: Replies)
    requires EndsFrom(replies.pages, Trim(a.keyInput), 0) && FirstRoundNow(a, replies)
    requires Trim(a.keyInput) != ""
    ensures GetPostsClick(a, replies).app.storage == a.storage
    ensures GetPostsClick(a, replies).app.remember == a.remember
  {
    var r := GetPostsClick(a, replies);
    if !r.shown.Rejected? {
      assert r == Fetch(a.(rows := []), replies);
    }
  }

  /** Refreshing the buttons keeps the invariant of a state with the same session. */
  lemma RefreshedConsistent(a: App, b: App)
    requires Consistent(a) && b == Refresh(a.(rows := []))
    ensures Consistent(b)
  {
  }

  /** The invariant depends only on the session, the key field, the box and storage. */
  lemma KeptFieldsConsistent(a: App, b: App)
    requires Consistent(a)
    requires b.session == a.session && b.keyInput == a.keyInput
    requires b.remember == a.remember && b.storage == a.storage
    ensures Consistent(b)
  {
  }
}

=== FILE: jstext.dfy ===
/** The handful of ECMAScript string operations the application relies on:
    `String.prototype.trim`, `startsWith`, the test `/^\d+$/` and
    `String.prototype.replace` with a string pattern (first occurrence only).
    Strings are sequences of Unicode scalar values; every character the
    operations below inspect lies in the Basic Multilingual Plane, so this
    agrees with ECMAScript's UTF-16 code units for them. */
module JsText {
  import opened Outcome

  /** ECMAScript WhiteSpace and LineTerminator code points: the characters
      `trim` removes (section 22.1.3.32 of ECMA-262). */
  predicate IsSpace(c: char) {
    || c == '\t' || c == '\n' || c == '\U{B}' || c == '\U{C}' || c == '\r' || c == ' '
    || c == '\U{A0}' || c == '\U{1680}' || ('\U{2000}' <= c <= '\U{200A}')
    || c == '\U{2028}' || c == '\U{2029}' || c == '\U{202F}' || c == '\U{205F}'
    || c == '\U{3000}' || c == '\U{FEFF}'
  }

  /** `s` without its leading white space. */
  function TrimStart(s: string): (r: string)
    ensures |r| <= |s| && r == s[|s| - |r|..]
    ensures r == [] || !IsSpace(r[0])
    ensures forall i :: 0 <= i < |s| - |r| ==> IsSpace(s[i])
  {
    if |s| > 0 && IsSpace(s[0]) then TrimStart(s[1..]) else s
  }

  /** `s` without its trailing white space. */
  function TrimEnd(s: string): (r: string)
    ensures |r| <= |s| && r == s[..|r|]
    ensures r == [] || !IsSpace(r[|r| - 1])
    ensures forall i :: |r| <= i < |s| ==> IsSpace(s[i])
  {
    if |s| > 0 && IsSpace(s[|s| - 1]) then TrimEnd(s[..|s| - 1]) else s
  }

  /** `String.prototype.trim`: `s` without white space at either end; empty
      exactly when `s` is blank. */
  function Trim(s: string): (r: string)
    ensures |r| <= |s|
    ensures r == [] || (!IsSpace(r[0]) && !IsSpace(r[|r| - 1]))
    ensures r == [] <==> forall i :: 0 <= i < |s| ==> IsSpace(s[i])
  {
    TrimBlank(s);
    TrimEnd(TrimStart(s))
  }

  /** Every character of `s` before position `i` and from position `j` on is white space. */
  predicate SpacesOutside(s: string, i: nat, j: nat)
    requires i <= j <= |s|
  {
    (forall k :: 0 <= k < i ==> IsSpace(s[k])) && (forall k :: j <= k < |s| ==> IsSpace(s[k]))
  }

  /** `trim` cuts white space at each end and keeps the middle. */
  lemma TrimSlice(s: string)
    ensures exists i, j :: 0 <= i <= j <= |s| && Trim(s) == s[i..j] && SpacesOutside(s, i, j)
  {
    var t := TrimStart(s);
    var r := TrimEnd(t);
    assert Trim(s) == r;
    FramedBySpaces(s, t, r, |s| - |t|);
  }

  lemma FramedBySpaces(s: string, t: string, r: string, i: nat)
    requires i <= |s| && t == s[i..] && |r| <= |t| && r == t[..|r|]
    requires forall k :: 0 <= k < i ==> IsSpace(s[k])
    requires forall k :: |r| <= k < |t| ==> IsSpace(t[k])
    ensures exists i', j :: 0 <= i' <= j <= |s| && r == s[i'..j] && SpacesOutside(s, i', j)
  {
    var j := i + |r|;
    forall k | 0 <= k < |r|
      ensures r[k] == s[i + k]
    {
      assert r[k] == t[k];
    }
    forall k | j <= k < |s|
      ensures IsSpace(s[k])
    {
      assert s[k] == t[k - i];
    }
    assert r == s[i..j] && SpacesOutside(s, i, j);
  }

  lemma TrimBlank(s: string)
    ensures TrimEnd(TrimStart(s)) == [] <==> forall i :: 0 <= i < |s| ==> IsSpace(s[i])
  {
    var t := TrimStart(s);
    var k := |s| - |t|;
    if TrimEnd(t) == [] {
      SpacesAfter(s, k);
    } else {
      assert t[0] == s[k] && !IsSpace(s[k]);
    }
  }

  lemma SpacesAfter(s: string, k: nat)
    requires k <= |s|
    requires forall j :: 0 <= j < |s| - k ==> IsSpace(s[k..][j])
    ensures forall i :: k <= i < |s| ==> IsSpace(s[i])
  {
    forall i | k <= i < |s|
      ensures IsSpace(s[i])
    {
      assert s[k..][i - k] == s[i];
    }
  }

  /** A string with no white space at either end is its own trim. */
  lemma TrimOfTrimmed(s: string)
    requires s == [] || (!IsSpace(s[0]) && !IsSpace(s[|s| - 1]))
    ensures Trim(s) == s
  {
  }

  /** `s.startsWith(p)`. */
  predicate StartsWith(s: string, p: string) {
    |p| <= |s| && s[..|p|] == p
  }

  /** The test `s.startsWith('http://') || s.startsWith('https://')`. */
  predicate HasHttpScheme(s: string) {
    StartsWith(s, "http://") || StartsWith(s, "https://")
  }

  predicate IsDigit(c: char) {
    '0' <= c <= '9'
  }

  /** The regular expression test `/^\d+$/.test(s)`: without the `u` flag
      `\d` is the ASCII digits, and `$` without `m` anchors at the very end. */
  predicate AllDigits(s: string) {
    |s| > 0 && forall i :: 0 <= i < |s| ==> IsDigit(s[i])
  }

  /** A string that starts with a scheme contains ':' and so is not all digits. */
  lemma SchemeIsNotDigits(s: string)
    requires HasHttpScheme(s)
    ensures !AllDigits(s)
  {
    assert s[4] == ':' || s[5] == ':' by {
      if StartsWith(s, "http://") {
        assert s[..7][4] == ':';
      } else {
        assert s[..8][5] == ':';
      }
    }
  }

  /** `p` occurs in `s` at position `j`. */
  predicate OccursAt(s: string, p: string, j: nat) {
    j + |p| <= |s| && s[j..j + |p|] == p
  }

  /** `s.indexOf(p, k)`: the first occurrence of `p` at or after `k`. */
  function IndexFrom(s: string, p: string, k: nat): (r: Option<nat>)
    requires k <= |s|
    ensures r.Some? ==> k <= r.value && OccursAt(s, p, r.value)
    ensures r.Some? ==> forall j :: k <= j < r.value ==> !OccursAt(s, p, j)
    ensures r.None? ==> forall j :: k <= j <= |s| ==> !OccursAt(s, p, j)
    decreases |s| - k
  {
    if k + |p| > |s| then None
    else if s[k..k + |p|] == p then Some(k)
    else if k == |s| then None
    else IndexFrom(s, p, k + 1)
  }

  /** `s.replace(p, rep)` with a string pattern: only the first occurrence
      is replaced, and `s` is returned unchanged when `p` does not occur. */
  function ReplaceFirst(s: string, p: string, rep: string): (r: string)
    ensures (forall j :: 0 <= j <= |s| ==> !OccursAt(s, p, j)) ==> r == s
    ensures OccursAt(s, p, 0) ==> r == rep + s[|p|..]
  {
    match IndexFrom(s, p, 0)
    case None => s
    case Some(i) => s[..i] + rep + s[i + |p|..]
  }
}

=== FILE: legacy.dfy ===
/** The earlier revision (app.js): the same two remote operations guarded by
    a bare `gapiClientReady` flag with no key check, a pagination that treats
    missing `items` as an empty page, routing without normalisation, and a
    Get-Posts handler that stores the key on every click. */
module Legacy {
  import opened Outcome
  import opened JsText
  import opened Remote
  import opened ClientSession
  import opened BlogRef
  import opened Render
  import Listing
  import Controls

  /** The errors the two operations and the handler throw. */
  datatype LegacyFailure =
    | NotReady
    | ResolveFailed(detail: string)
    | ListFailed(detail: string)
    | CoreNotLoaded
    | ClientNotInitialised

  function LegacyText(f: LegacyFailure): string {
    match f
    case NotReady => "Google API Client is not initialized. Please ensure API Key is entered."
    case ResolveFailed(d) => "Failed to get Blog ID from URL: " + d
    case ListFailed(d) => "Failed to list posts: " + d
    case CoreNotLoaded => "Google API client core script not yet loaded. Please wait."
    case ClientNotInitialised => "API Client could not be initialized with the provided key."
  }

  /** V8's message for reading `prop` of `undefined`: what `response.result.id`
      or `response.result.items` throws when the response has no `result`. */
  function UndefinedRead(prop: string): string {
    "Cannot read properties of undefined (reading '" + prop + "')"
  }

  // ---------------------------------------------------------------------
  // initGapiClient

  /** How a call of the earlier `initGapiClient` ended. */
  datatype LegacyInitResult = LegacyAlreadyReady | LegacyMissingKey | LegacyInitialised | LegacyInitFailed(detail: string)

  datatype LegacyInitStep = LegacyInitStep(ready: bool, result: LegacyInitResult)

  /** The earlier `initGapiClient(key)`. The short-circuit comes first and
      compares with the client library's own `apiKey` field, an opaque input
      here (`clientKeyMatches`); only then is the empty key rejected. */
  function LegacyInit(ready: bool, clientKeyMatches: bool, key: string, reply: InitReply): (r: LegacyInitStep)
    ensures ready && clientKeyMatches ==> r == LegacyInitStep(true, LegacyAlreadyReady)
    ensures !(ready && clientKeyMatches) && key == "" ==> r == LegacyInitStep(false, LegacyMissingKey)
    ensures !(ready && clientKeyMatches) && key != "" ==> (r.ready <==> reply.InitOk?)
    ensures reply.InitFault? && !(ready && clientKeyMatches) && key != "" ==>
              r.result == LegacyInitFailed(InitDetail(reply.error))
  {
    if ready && clientKeyMatches then LegacyInitStep(true, LegacyAlreadyReady)
    else if key == "" then LegacyInitStep(false, LegacyMissingKey)
    else
      match reply
      case InitOk => LegacyInitStep(true, LegacyInitialised)
      case InitFault(e) => LegacyInitStep(false, LegacyInitFailed(InitDetail(e)))
  }

  /** The two revisions order the initialisation checks differently: with an
      empty key the current build always resets the session, the earlier one
      keeps a ready client whose own key field matches. */
  lemma EmptyKeyInitCompared(s: Session, reply: InitReply)
    requires s.ready
    ensures InitGapiClient(s, "", reply) == InitStep(Idle, MissingKey)
    ensures LegacyInit(true, true, "", reply) == LegacyInitStep(true, LegacyAlreadyReady)
    ensures LegacyInit(true, false, "", reply) == LegacyInitStep(false, LegacyMissingKey)
  {
  }

  // ---------------------------------------------------------------------
  // getBlogIdFromUrl

  /** The earlier `getBlogIdFromUrl`: the flag guard, then the lookup. An
      answer without `result` throws a `TypeError` inside the `try`, which the
      `catch` wraps; an answer without `id` yields `undefined` (`None`). */
  function LegacyGetBlogId(ready: bool, reply: BlogReply): (r: Result<Option<string>, LegacyFailure>)
    ensures r == Err(NotReady) <==> !ready
    ensures ready && reply.BlogFault? ==> r == Err(ResolveFailed(CallDetail(reply.error)))
    ensures ready && reply.BlogOk? && reply.result.Some? ==> r == Ok(reply.result.value.id)
    ensures ready && reply == BlogOk(None) ==> r == Err(ResolveFailed(UndefinedRead("id")))
  {
    if !ready then Err(NotReady)
    else
      match reply
      case BlogFault(e) => Err(ResolveFailed(CallDetail(e)))
      case BlogOk(None) =>
        var e := Thrown(UndefinedRead("id"));
        CallDetailOrder(e);
        Err(ResolveFailed(CallDetail(e)))
      case BlogOk(Some(body)) => Ok(body.id)
  }

  /** A 404 from the lookup: the current build names it, the earlier one
      passes the error's own text through the generic failure. */
  lemma NotFoundLookupCompared(s: Session, key: string, e: ApiError)
    requires Authorised(s, key) && e.code == Some(404)
    ensures Listing.GetBlogIdFromUrl(s, key, BlogFault(e)) == Err(Listing.BlogNotFoundForUrl)
    ensures LegacyGetBlogId(true, BlogFault(e)) == Err(ResolveFailed(CallDetail(e)))
  {
  }

  // ---------------------------------------------------------------------
  // listAllPosts

  /** One round of the earlier pagination: the flag as its guard sees it and
      the reply to that round's request. */
  datatype LegacyTurn = LegacyTurn(ready: bool, reply: PageReply)

  /** The round ends the earlier listing: the guard refuses, the request
      fails, the answer has no `result` (a `TypeError`), or no next-page
      token. Missing `items` alone does not end it. */
  predicate LegacyHalts(t: LegacyTurn) {
    || !t.ready
    || t.reply.PageFault?
    || t.reply.result.None?
    || !HasNext(t.reply.result.value)
  }

  predicate LegacyEndsFrom(feed: seq<LegacyTurn>, i: nat) {
    exists j :: i <= j < |feed| && LegacyHalts(feed[j])
  }

  /** One frame of the earlier `listAllPosts`. As in the current build a
      later frame's result is returned without `await`, so its error is not
      wrapped again here. */
  function LegacyListFrom(feed: seq<LegacyTurn>, i: nat, acc: seq<Post>): (r: Result<seq<Post>, LegacyFailure>)
    requires LegacyEndsFrom(feed, i)
    ensures r.Ok? ==> |acc| <= |r.value| && r.value[..|acc|] == acc
    decreases |feed| - i
  {
    var t := feed[i];
    if !t.ready then Err(NotReady)
    else
      match t.reply
      case PageFault(e) => Err(ListFailed(CallDetail(e)))
      case PageOk(None) =>
        var e := Thrown(UndefinedRead("items"));
        CallDetailOrder(e);
        Err(ListFailed(CallDetail(e)))
      case PageOk(Some(body)) =>
        var more := acc + ItemsOf(t.reply);
        if HasNext(body) then
          var r := LegacyListFrom(feed, i + 1, more);
          assert r.Ok? ==> r.value[..|acc|] == r.value[..|more|][..|acc|];
          r
        else Ok(more)
  }

  function LegacyListAllPosts(feed: seq<LegacyTurn>): Result<seq<Post>, LegacyFailure>
    requires LegacyEndsFrom(feed, 0)
  {
    LegacyListFrom(feed, 0, [])
  }

  /** The first round from `i` on that ends the earlier listing. */
  function LegacyFirstHalt(feed: seq<LegacyTurn>, i: nat): (k: nat)
    requires LegacyEndsFrom(feed, i)
    ensures i <= k < |feed| && LegacyHalts(feed[k])
    ensures forall j :: i <= j < k ==> !LegacyHalts(feed[j])
    decreases |feed| - i
  {
    if LegacyHalts(feed[i]) then i else LegacyFirstHalt(feed, i + 1)
  }

  /** The items of rounds `i` to `k - 1`, in order, missing ones counting as none. */
  function LegacyGathered(feed: seq<LegacyTurn>, i: nat, k: nat): seq<Post>
    requires i <= k <= |feed|
    decreases k - i
  {
    if i == k then [] else ItemsOf(feed[i].reply) + LegacyGathered(feed, i + 1, k)
  }

  /** The earlier listing's outcome when round `t` ends it after `before`. */
  function LegacySettle(t: LegacyTurn, before: seq<Post>): Result<seq<Post>, LegacyFailure> {
    if !t.ready then Err(NotReady)
    else if t.reply.PageFault? then Err(ListFailed(CallDetail(t.reply.error)))
    else if t.reply.result.None? then Err(ListFailed(UndefinedRead("items")))
    else Ok(before + ItemsOf(t.reply))
  }

  lemma {:induction false} LegacyListFromSettles(feed: seq<LegacyTurn>, i: nat, acc: seq<Post>)
    requires LegacyEndsFrom(feed, i)
    ensures var k := LegacyFirstHalt(feed, i);
            LegacyListFrom(feed, i, acc) == LegacySettle(feed[k], acc + LegacyGathered(feed, i, k))
    decreases |feed| - i
  {
    var k := LegacyFirstHalt(feed, i);
    if k == i {
      assert acc + LegacyGathered(feed, i, k) == acc;
      CallDetailOrder(Thrown(UndefinedRead("items")));
    } else {
      var more := acc + ItemsOf(feed[i].reply);
      assert LegacyFirstHalt(feed, i + 1) == k;
      LegacyListFromSettles(feed, i + 1, more);
      assert more + LegacyGathered(feed, i + 1, k) == acc + LegacyGathered(feed, i, k);
    }
  }

  /** The earlier listing concatenates the items of every page up to the
      first one without a next-page token, pages without `items` counting as
      empty; a missing flag, a failed request or a missing `result` fails it. */
  lemma LegacyListAllPostsSettles(feed: seq<LegacyTurn>)
    requires LegacyEndsFrom(feed, 0)
    ensures var k := LegacyFirstHalt(feed, 0);
            LegacyListAllPosts(feed) == LegacySettle(feed[k], LegacyGathered(feed, 0, k))
  {
    LegacyListFromSettles(feed, 0, []);
    assert [] + LegacyGathered(feed, 0, LegacyFirstHalt(feed, 0)) == LegacyGathered(feed, 0, LegacyFirstHalt(feed, 0));
  }

  /** With the flag off the earlier listing fails at its first round, before
      any request, whatever the remote would have answered. */
  lemma LegacyGuardRefusesWhenNotReady(replies: seq<PageReply>)
    requires |replies| > 0
    ensures var feed := seq(|replies|, i requires 0 <= i < |replies| => LegacyTurn(false, replies[i]));
            LegacyEndsFrom(feed, 0) && LegacyListAllPosts(feed) == Err(NotReady)
  {
    var feed := seq(|replies|, i requires 0 <= i < |replies| => LegacyTurn(false, replies[i]));
    assert LegacyHalts(feed[0]);
  }

  /** The guards compared on a key that differs from the one the client was
      initialised with: the current build refuses the request, the earlier
      one, which only looks at its flag, sends it and lists the posts. */
  lemma KeyChangeCompared(s: Session, key: string, page: PageBody)
    requires s.ready && s.activeKey != key
    requires page.items.Some? && !HasNext(page)
    ensures var feed := Listing.Steady(s, [PageOk(Some(page))]);
            Listing.EndsFrom(feed, key, 0) && Listing.ListAllPosts(key, feed) == Err(Listing.NotInitialized)
    ensures var prior := [LegacyTurn(s.ready, PageOk(Some(page)))];
            LegacyEndsFrom(prior, 0) && LegacyListAllPosts(prior) == Ok(page.items.value)
  {
    var feed := Listing.Steady(s, [PageOk(Some(page))]);
    assert Listing.Halts(feed[0], key);
    var prior := [LegacyTurn(s.ready, PageOk(Some(page)))];
    assert LegacyHalts(prior[0]);
    assert [] + page.items.value == page.items.value;
  }

  /** The stop rules compared on a page without `items` that still carries a
      token: the current build stops there with what it has, the earlier one
      follows the token and collects the next page. */
  lemma ItemlessPageCompared(s: Session, key: string, token: string, c: Post)
    requires Authorised(s, key) && token != ""
    ensures var replies := [PageOk(Some(PageBody(None, Some(token)))), PageOk(Some(PageBody(Some([c]), None)))];
            var feed := Listing.Steady(s, replies);
            var prior := [LegacyTurn(true, replies[0]), LegacyTurn(true, replies[1])];
            && Listing.EndsFrom(feed, key, 0) && Listing.ListAllPosts(key, feed) == Ok([])
            && LegacyEndsFrom(prior, 0) && LegacyListAllPosts(prior) == Ok([c])
  {
    var replies := [PageOk(Some(PageBody(None, Some(token)))), PageOk(Some(PageBody(Some([c]), None)))];
    var feed := Listing.Steady(s, replies);
    var prior := [LegacyTurn(true, replies[0]), LegacyTurn(true, replies[1])];
    assert Listing.Halts(feed[0], key);
    assert LegacyHalts(prior[1]);
    assert LegacyListFrom(prior, 1, []) == Ok([] + [c]);
    assert LegacyListFrom(prior, 0, []) == LegacyListFrom(prior, 1, [] + []);
  }

  /** On pages that all carry `result` and `items`, with the earlier flag
      standing for the current session check, the two listings agree: the
      same posts, or corresponding failures. */
  predicate WellFormedPages(feed: seq<Listing.Turn>) {
    forall i :: 0 <= i < |feed| && feed[i].reply.PageOk? ==>
      feed[i].reply.result.Some? && feed[i].reply.result.value.items.Some?
  }

  /** The earlier listing's view of the current rounds: the flag is the
      current session check for `key`. */
  function AsLegacy(key: string, feed: seq<Listing.Turn>): (r: seq<LegacyTurn>)
    ensures |r| == |feed|
    ensures forall i :: 0 <= i < |r| ==> r[i] == LegacyTurn(Authorised(feed[i].session, key), feed[i].reply)
  {
    seq(|feed|, i requires 0 <= i < |feed| => LegacyTurn(Authorised(feed[i].session, key), feed[i].reply))
  }

  /** The failure of the current build that corresponds to an earlier one:
      the same generic text, or a named 404/400 where the earlier build shows
      the generic text. */
  predicate Corresponds(now: Result<seq<Post>, Listing.Failure>, before: Result<seq<Post>, LegacyFailure>) {
    if now.Ok? then before == Ok(now.value)
    else if now.error.NotInitialized? then before == Err(NotReady)
    else if now.error.ListFailed? then before == Err(ListFailed(now.error.detail))
    else if now.error.BlogNotFoundForId? || now.error.InvalidRequest? then before.Err? && before.error.ListFailed?
    else false
  }

  lemma {:induction false} ListingsAgreeFrom(key: string, feed: seq<Listing.Turn>, i: nat, acc: seq<Post>)
    requires WellFormedPages(feed) && Listing.EndsFrom(feed, key, i)
    ensures LegacyEndsFrom(AsLegacy(key, feed), i)
    ensures Corresponds(Listing.ListFrom(key, feed, i, acc), LegacyListFrom(AsLegacy(key, feed), i, acc))
    decreases |feed| - i
  {
    var prior := AsLegacy(key, feed);
    var k := Listing.FirstHalt(feed, key, i);
    assert LegacyHalts(prior[k]);
    var t := feed[i];
    if Listing.Halts(t, key) {
      if Authorised(t.session, key) && t.reply.PageFault? {
        var e := t.reply.error;
        assert Listing.ListFrom(key, feed, i, acc) == Err(Listing.ListCatch(e));
      }
    } else {
      var more := acc + t.reply.result.value.items.value;
      assert Listing.FirstHalt(feed, key, i + 1) == k;
      ListingsAgreeFrom(key, feed, i + 1, more);
      assert Listing.ListFrom(key, feed, i, acc) == Listing.ListFrom(key, feed, i + 1, more);
      assert LegacyListFrom(prior, i, acc) == LegacyListFrom(prior, i + 1, more);
    }
  }

  /** Away from the two differences (pages without `items`, the named 404
      and 400), the revisions list the same posts and fail alike. */
  lemma ListingsAgree(key: string, feed: seq<Listing.Turn>)
    requires WellFormedPages(feed) && Listing.EndsFrom(feed, key, 0)
    ensures LegacyEndsFrom(AsLegacy(key, feed), 0)
    ensures Corresponds(Listing.ListAllPosts(key, feed), LegacyListAllPosts(AsLegacy(key, feed)))
  {
    ListingsAgreeFrom(key, feed, 0, []);
  }

  // ---------------------------------------------------------------------
  // Routing and the handlers

  /** The earlier routing: `http(s)://` references are resolved, every other
      reference is the blog id verbatim. */
  function LegacyRoute(ref: string): (r: Route)
    ensures r.ByUrl? <==> HasHttpScheme(ref)
    ensures r.ByUrl? ==> r.url == ref
    ensures r.ById? ==> r.blogId == ref
  {
    if HasHttpScheme(ref) then ByUrl(ref) else ById(ref)
  }

  /** The revisions route alike except for a reference that has no scheme
      and is not all digits: the current build resolves it as an https URL,
      the earlier one sends it as a blog id. */
  lemma RoutesCompared(ref: string)
    requires ref != ""
    ensures HasHttpScheme(ref) || AllDigits(ref) ==> LegacyRoute(ref) == RouteOf(ref)
    ensures !HasHttpScheme(ref) && !AllDigits(ref) ==>
              LegacyRoute(ref) == ById(ref) && RouteOf(ref) == ByUrl("https://" + ref)
  {
    RouteCases(ref);
    if HasHttpScheme(ref) {
      SchemeIsNotDigits(ref);
    }
  }

  /** The state the earlier handlers see. */
  datatype LegacyApp = LegacyApp(ready: bool, keyInput: string, blogInput: string, storage: map<string, string>)

  /** The earlier clear handler: the stored key and the key field are
      emptied and the flag is reset; other entries are kept. */
  function LegacyClear(a: LegacyApp): (r: LegacyApp)
    ensures !r.ready && r.keyInput == "" && Controls.KeyEntry !in r.storage
    ensures r.blogInput == a.blogInput
    ensures forall k :: k != Controls.KeyEntry ==>
              (k in r.storage <==> k in a.storage) && (k in a.storage ==> r.storage[k] == a.storage[k])
  {
    LegacyApp(false, "", a.blogInput, a.storage - {Controls.KeyEntry})
  }

  /** Both ways the earlier build drops the flag: clearing, and initialising
      with an empty key when the short-circuit does not apply. */
  lemma LegacyResets(a: LegacyApp, clientKeyMatches: bool, reply: InitReply)
    ensures !LegacyClear(a).ready
    ensures !(a.ready && clientKeyMatches) ==> !LegacyInit(a.ready, clientKeyMatches, "", reply).ready
  {
  }

  /** What the earlier Get-Posts handler shows. */
  datatype LegacyShown = Prompt(text: string) | Failed(text: string) | NoPosts | Listed(posts: seq<Post>)

  /** The replies the earlier handler's remote calls settle with. The page
      rounds carry the flag their guard sees. The lookup's guard runs in the
      same turn as the handler's own check of the flag after `init`, so it
      sees the flag on and needs no entry here. */
  datatype LegacyRemote = LegacyRemote(
    coreLoaded: bool,
    clientKeyMatches: bool,
    init: InitReply,
    lookup: BlogReply,
    pages: seq<LegacyTurn>)

  /** When the reference is sent as the id, nothing is awaited between the
      handler's check of the flag and the guard of the first page round:
      that round sees the flag on. After a lookup its flag is free. */
  predicate LegacyFirstRoundNow(blog: string, remote: LegacyRemote) {
    LegacyRoute(blog).ById? && remote.pages != [] ==> remote.pages[0].ready
  }

  /** The blog id the earlier handler lists from, once the flag is on: the
      reference itself, or the lookup's answer when the reference is an
      `http(s)://` URL. */
  function LegacyBlogId(blog: string, remote: LegacyRemote): (r: Result<Option<string>, LegacyFailure>)
    ensures !HasHttpScheme(blog) ==> r == Ok(Some(blog))
    ensures HasHttpScheme(blog) ==> r == LegacyGetBlogId(true, remote.lookup)
  {
    match LegacyRoute(blog)
    case ByUrl(_) => LegacyGetBlogId(true, remote.lookup)
    case ById(i) => Ok(Some(i))
  }

  /** The handler's work once the client is ready: route, resolve, list and
      sort. */
  function LegacyFetch(blog: string, remote: LegacyRemote): (r: LegacyShown)
    requires LegacyEndsFrom(remote.pages, 0) && LegacyFirstRoundNow(blog, remote)
    ensures r.Listed? ==> SortedDesc(r.posts) && |r.posts| > 0
    ensures !r.Prompt?
    ensures LegacyBlogId(blog, remote).Err? ==> r == Failed("Error: " + LegacyText(LegacyBlogId(blog, remote).error))
    ensures var listed := LegacyListAllPosts(remote.pages);
            LegacyBlogId(blog, remote).Ok? && listed.Err? ==> r == Failed("Error: " + LegacyText(listed.error))
    ensures var listed := LegacyListAllPosts(remote.pages);
            LegacyBlogId(blog, remote).Ok? && listed.Ok? && listed.value == [] ==> r == NoPosts
    ensures var listed := LegacyListAllPosts(remote.pages);
            LegacyBlogId(blog, remote).Ok? && listed.Ok? && listed.value != [] ==>
              r.Listed? && multiset(r.posts) == multiset(listed.value)
  {
    var id := LegacyBlogId(blog, remote);
    if id.Err? then Failed("Error: " + LegacyText(id.error))
    else
      match LegacyListAllPosts(remote.pages)
      case Err(f) => Failed("Error: " + LegacyText(f))
      case Ok(posts) => if posts == [] then NoPosts else Listed(SortByPublished(posts))
  }

  /** A reference without a scheme is never looked up, even one the current
      build would resolve as a URL: the lookup's reply makes no difference. */
  lemma LegacyUnschemedNeverResolved(blog: string, remote: LegacyRemote, lookup: BlogReply)
    requires LegacyEndsFrom(remote.pages, 0) && LegacyFirstRoundNow(blog, remote)
    requires !HasHttpScheme(blog)
    ensures LegacyFetch(blog, remote.(lookup := lookup)) == LegacyFetch(blog, remote)
  {
    assert LegacyBlogId(blog, remote.(lookup := lookup)) == LegacyBlogId(blog, remote);
  }

  /** The earlier Get-Posts handler: both fields are checked before anything
      happens, then the key is stored, then the client is initialised, and
      the posts are fetched. Every thrown error is shown as "Error: " and its text. */
  function LegacyGetPostsClick(a: LegacyApp, remote: LegacyRemote): (r: (LegacyApp, LegacyShown))
    requires LegacyEndsFrom(remote.pages, 0) && LegacyFirstRoundNow(Trim(a.blogInput), remote)
    ensures Trim(a.blogInput) == "" ==> r == (a, Prompt("Please enter a Blogger Blog URL or ID."))
    ensures Trim(a.blogInput) != "" && Trim(a.keyInput) == "" ==> r == (a, Prompt("Please enter your Google API Key."))
    ensures Trim(a.blogInput) != "" && Trim(a.keyInput) != "" ==>
              && !r.1.Prompt?
              && r.0.storage == a.storage[Controls.KeyEntry := Trim(a.keyInput)]
              && r.0.keyInput == a.keyInput && r.0.blogInput == a.blogInput
    ensures Trim(a.blogInput) != "" && Trim(a.keyInput) != "" && !remote.coreLoaded ==>
              r.1 == Failed("Error: " + LegacyText(CoreNotLoaded)) && r.0.ready == a.ready
    ensures var key := Trim(a.keyInput);
            Trim(a.blogInput) != "" && key != "" && remote.coreLoaded
            && !LegacyInit(a.ready, remote.clientKeyMatches, key, remote.init).ready ==>
              !r.0.ready && r.1 == Failed("Error: " + LegacyText(ClientNotInitialised))
    ensures var key := Trim(a.keyInput);
            Trim(a.blogInput) != "" && key != "" && remote.coreLoaded
            && LegacyInit(a.ready, remote.clientKeyMatches, key, remote.init).ready ==>
              r.0.ready && r.1 == LegacyFetch(Trim(a.blogInput), remote)
    ensures r.1.Listed? ==> SortedDesc(r.1.posts) && |r.1.posts| > 0
  {
    var blog := Trim(a.blogInput);
    var key := Trim(a.keyInput);
    if |blog| == 0 then (a, Prompt("Please enter a Blogger Blog URL or ID."))
    else if |key| == 0 then (a, Prompt("Please enter your Google API Key."))
    else
      var saved := a.(storage := a.storage[Controls.KeyEntry := key]);
      if !remote.coreLoaded then (saved, Failed("Error: " + LegacyText(CoreNotLoaded)))
      else
        var ready := LegacyInit(saved.ready, remote.clientKeyMatches, key, remote.init).ready;
        if !ready then (saved.(ready := false), Failed("Error: " + LegacyText(ClientNotInitialised)))
        else (saved.(ready := true), LegacyFetch(blog, remote))
  }

  /** A click that passes the checks and initialises the client shows the
      earlier listing: for a reference sent as the id, every listed post,
      newest first, with no lookup involved. */
  lemma LegacyClickShowsListing(a: LegacyApp, remote: LegacyRemote, posts: seq<Post>)
    requires LegacyEndsFrom(remote.pages, 0) && LegacyFirstRoundNow(Trim(a.blogInput), remote)
    requires Trim(a.blogInput) != "" && Trim(a.keyInput) != "" && remote.coreLoaded
    requires LegacyInit(a.ready, remote.clientKeyMatches, Trim(a.keyInput), remote.init).ready
    requires !HasHttpScheme(Trim(a.blogInput))
    requires LegacyListAllPosts(remote.pages) == Ok(posts) && posts != []
    ensures LegacyGetPostsClick(a, remote).0.ready
    ensures LegacyGetPostsClick(a, remote).1.Listed?
    ensures multiset(LegacyGetPostsClick(a, remote).1.posts) == multiset(posts)
    ensures SortedDesc(LegacyGetPostsClick(a, remote).1.posts)
  {
  }

  /** The earlier handler stores the key before anything can fail: a click
      that fails to load, initialise or list still leaves the key stored. */
  lemma LegacyKeyStoredEvenOnFailure(a: LegacyApp, remote: LegacyRemote)
    requires LegacyEndsFrom(remote.pages, 0) && LegacyFirstRoundNow(Trim(a.blogInput), remote)
    requires Trim(a.blogInput) != "" && Trim(a.keyInput) != ""
    requires LegacyGetPostsClick(a, remote).1.Failed?
    ensures Controls.KeyEntry in LegacyGetPostsClick(a, remote).0.storage
    ensures LegacyGetPostsClick(a, remote).0.storage[Controls.KeyEntry] == Trim(a.keyInput)
  {
  }
}

=== FILE: listing.dfy ===
/** The two remote operations of the current build (AsWebApp.7c0ccee6.js):
    `getBlogIdFromUrl` and the paginated `listAllPosts`, with their session
    guard and their translation of remote errors into user-facing failures. */
module Listing {
  import opened Outcome
  import opened Remote
  import opened ClientSession

  /** The errors the two operations throw, each with its message. */
  datatype Failure =
    | NotInitialized
    | BlogNotFoundForUrl
    | ResolveFailed(detail: string)
    | BlogNotFoundForId
    | InvalidRequest
    | ListFailed(detail: string)

  function FailureText(f: Failure): string {
    match f
    case NotInitialized =>
      "Google API Client is not initialized or API Key has changed. Please initialize client first."
    case BlogNotFoundForUrl =>
      "Blog not found for this URL. Please verify the URL and your API key restrictions."
    case ResolveFailed(d) => "Failed to get Blog ID from URL: " + d
    case BlogNotFoundForId =>
      "Blog not found for this ID. Please verify the Blog ID and API key restrictions."
    case InvalidRequest => "Invalid Blog ID or malformed request. Please check the ID."
    case ListFailed(d) => "Failed to list posts: " + d
  }

  // ---------------------------------------------------------------------
  // getBlogIdFromUrl

  /** The message of the error thrown when the lookup answers without an id. */
  const NoBlogIdText := "Blog ID not found for the provided URL. Please check the URL carefully."

  /** The `catch` of `getBlogIdFromUrl`: a 404 becomes blog-not-found, every
      other error the generic failure with the call chain's detail. */
  function ResolveCatch(e: ApiError): (f: Failure)
    ensures f == BlogNotFoundForUrl <==> e.code == Some(404)
    ensures f != BlogNotFoundForUrl ==> f == ResolveFailed(CallDetail(e))
  {
    if e.code == Some(404) then BlogNotFoundForUrl else ResolveFailed(CallDetail(e))
  }

  /** `getBlogIdFromUrl(url, key)` with the lookup settling with `reply`. The
      session guard comes first, outside the `try`; an answer without an id
      is thrown inside the `try` and so reaches the `catch` like a remote error. */
  function GetBlogIdFromUrl(s: Session, key: string, reply: BlogReply): (r: Result<string, Failure>)
    ensures r == Err(NotInitialized) <==> !Authorised(s, key)
    ensures r.Ok? ==> r.value != "" && reply == BlogOk(Some(BlogBody(Some(r.value))))
    ensures (Authorised(s, key) && reply.BlogOk? && reply.result.Some? && reply.result.value.id.Some?
             && reply.result.value.id.value != "") ==> r == Ok(reply.result.value.id.value)
    ensures Authorised(s, key) && reply.BlogFault? ==> r == Err(ResolveCatch(reply.error))
    ensures r.Err? && r.error != NotInitialized ==> r.error.BlogNotFoundForUrl? || r.error.ResolveFailed?
  {
    if !Authorised(s, key) then Err(NotInitialized)
    else
      match reply
      case BlogFault(e) => Err(ResolveCatch(e))
      case BlogOk(res) =>
        if res.None? || res.value.id.None? || res.value.id.value == "" then
          Err(ResolveCatch(Thrown(NoBlogIdText)))
        else Ok(res.value.id.value)
  }

  /** Without an authorised session no lookup happens: the answer the remote
      would have given makes no difference. */
  lemma ResolveGuardIgnoresRemote(s: Session, key: string, reply1: BlogReply, reply2: BlogReply)
    requires !Authorised(s, key)
    ensures GetBlogIdFromUrl(s, key, reply1) == GetBlogIdFromUrl(s, key, reply2) == Err(NotInitialized)
  {
  }

  /** A lookup that answers without an id surfaces as the generic failure
      wrapping the "no id" message, not as the message itself. */
  lemma MissingIdIsRewrapped(s: Session, key: string, reply: BlogReply)
    requires Authorised(s, key)
    requires reply.BlogOk? && (reply.result.None? || reply.result.value.id.None? || reply.result.value.id.value == "")
    ensures GetBlogIdFromUrl(s, key, reply) == Err(ResolveFailed(NoBlogIdText))
  {
    var e := Thrown(NoBlogIdText);
    CallDetailOrder(e);
    assert ResolveCatch(e) == ResolveFailed(NoBlogIdText);
  }

  // ---------------------------------------------------------------------
  // listAllPosts

  /** The `catch` of `listAllPosts`: 404 and 400 get their own messages,
      every other error the generic failure with the call chain's detail. */
  function ListCatch(e: ApiError): (f: Failure)
    ensures f == BlogNotFoundForId <==> e.code == Some(404)
    ensures f == InvalidRequest <==> e.code == Some(400)
    ensures f.ListFailed? <==> e.code != Some(404) && e.code != Some(400)
    ensures f.ListFailed? ==> f.detail == CallDetail(e)
  {
    if e.code == Some(404) then BlogNotFoundForId
    else if e.code == Some(400) then InvalidRequest
    else ListFailed(CallDetail(e))
  }

  /** One round of the pagination: the session as the guard of that round
      sees it, and the reply to that round's `posts.list` request. */
  datatype Turn = Turn(session: Session, reply: PageReply)

  /** The reply ends the listing even when the guard lets the round through:
      the request failed, the answer lacks `result` or `items`, or it carries
      no next-page token. */
  predicate LastReply(reply: PageReply) {
    || reply.PageFault?
    || reply.result.None?
    || reply.result.value.items.None?
    || !HasNext(reply.result.value)
  }

  /** The round ends the listing: the guard refuses it or its reply is the last. */
  predicate Halts(t: Turn, key: string) {
    !Authorised(t.session, key) || LastReply(t.reply)
  }

  /** Some round from `i` on ends the listing. */
  predicate EndsFrom(feed: seq<Turn>, key: string, i: nat) {
    exists j :: i <= j < |feed| && Halts(feed[j], key)
  }

  /** One frame of `listAllPosts(blogId, key, acc, token)`, the frame of round
      `i`. A later frame is returned from inside the `try` without `await`,
      so its result, error included, passes through this frame untouched. */
  function ListFrom(key: string, feed: seq<Turn>, i: nat, acc: seq<Post>): (r: Result<seq<Post>, Failure>)
    requires EndsFrom(feed, key, i)
    ensures r.Ok? ==> |acc| <= |r.value| && r.value[..|acc|] == acc
    decreases |feed| - i
  {
    var t := feed[i];
    if !Authorised(t.session, key) then Err(NotInitialized)
    else
      match t.reply
      case PageFault(e) => Err(ListCatch(e))
      case PageOk(res) =>
        if res.None? || res.value.items.None? then Ok(acc)
        else
          var more := acc + res.value.items.value;
          if HasNext(res.value) then
            var r := ListFrom(key, feed, i + 1, more);
            assert r.Ok? ==> r.value[..|acc|] == r.value[..|more|][..|acc|];
            r
          else Ok(more)
  }

  /** `listAllPosts(blogId, key)` against the rounds `feed`. */
  function ListAllPosts(key: string, feed: seq<Turn>): Result<seq<Post>, Failure>
    requires EndsFrom(feed, key, 0)
  {
    ListFrom(key, feed, 0, [])
  }

  // ---------------------------------------------------------------------
  // Reference definition: the first halting round decides.

  /** The first round from `i` on that ends the listing. */
  function FirstHalt(feed: seq<Turn>, key: string, i: nat): (k: nat)
    requires EndsFrom(feed, key, i)
    ensures i <= k < |feed| && Halts(feed[k], key)
    ensures forall j :: i <= j < k ==> !Halts(feed[j], key)
    decreases |feed| - i
  {
    if Halts(feed[i], key) then i else FirstHalt(feed, key, i + 1)
  }

  /** The items of rounds `i` to `k - 1`, in order. */
  function Gathered(feed: seq<Turn>, i: nat, k: nat): seq<Post>
    requires i <= k <= |feed|
    decreases k - i
  {
    if i == k then [] else ItemsOf(feed[i].reply) + Gathered(feed, i + 1, k)
  }

  /** What the listing yields when round `t` is the first to end it and
      `before` holds the items of the rounds before it. */
  function Settle(key: string, t: Turn, before: seq<Post>): Result<seq<Post>, Failure> {
    if !Authorised(t.session, key) then Err(NotInitialized)
    else if t.reply.PageFault? then Err(ListCatch(t.reply.error))
    else Ok(before + ItemsOf(t.reply))
  }

  lemma {:induction false} ListFromSettles(key: string, feed: seq<Turn>, i: nat, acc: seq<Post>)
    requires EndsFrom(feed, key, i)
    ensures var k := FirstHalt(feed, key, i);
            ListFrom(key, feed, i, acc) == Settle(key, feed[k], acc + Gathered(feed, i, k))
    decreases |feed| - i
  {
    var k := FirstHalt(feed, key, i);
    if k == i {
      assert acc + Gathered(feed, i, k) == acc;
    } else {
      var t := feed[i];
      assert !Halts(t, key);
      var more := acc + t.reply.result.value.items.value;
      assert FirstHalt(feed, key, i + 1) == k;
      ListFromSettles(key, feed, i + 1, more);
      assert more + Gathered(feed, i + 1, k) == acc + Gathered(feed, i, k);
    }
  }

  /** The listing is decided by the first round that ends it: the guard's
      refusal gives "not initialized", a failed request gives that request's
      translated error, and otherwise the result is the in-order concatenation
      of every page's items up to and including that round (a round without
      `items` contributing nothing). */
  lemma ListAllPostsSettles(key: string, feed: seq<Turn>)
    requires EndsFrom(feed, key, 0)
    ensures var k := FirstHalt(feed, key, 0);
            ListAllPosts(key, feed) == Settle(key, feed[k], Gathered(feed, 0, k))
  {
    ListFromSettles(key, feed, 0, []);
    assert [] + Gathered(feed, 0, FirstHalt(feed, key, 0)) == Gathered(feed, 0, FirstHalt(feed, key, 0));
  }

  /** Every error of the listing is either the guard's or the translation of
      exactly one failed request, however deep the recursion: a later page's
      error is not translated a second time by the earlier frames. */
  lemma ListErrorsTranslatedOnce(key: string, feed: seq<Turn>)
    requires EndsFrom(feed, key, 0)
    ensures ListAllPosts(key, feed).Err? ==>
              || ListAllPosts(key, feed).error == NotInitialized
              || exists k :: 0 <= k < |feed| && feed[k].reply.PageFault?
                             && ListAllPosts(key, feed).error == ListCatch(feed[k].reply.error)
  {
    ListAllPostsSettles(key, feed);
  }

  // ---------------------------------------------------------------------
  // A session that stays put for the whole listing.

  /** Every round sees the session `s`. */
  function Steady(s: Session, replies: seq<PageReply>): (feed: seq<Turn>)
    ensures |feed| == |replies|
    ensures forall i :: 0 <= i < |feed| ==> feed[i] == Turn(s, replies[i])
  {
    seq(|replies|, i requires 0 <= i < |replies| => Turn(s, replies[i]))
  }

  /** Without an authorised session the listing fails before any request,
      whatever the remote would have answered. */
  lemma ListGuardIgnoresRemote(s: Session, key: string, replies: seq<PageReply>)
    requires !Authorised(s, key) && |replies| > 0
    ensures EndsFrom(Steady(s, replies), key, 0)
    ensures ListAllPosts(key, Steady(s, replies)) == Err(NotInitialized)
  {
    assert Halts(Steady(s, replies)[0], key);
  }

  /** The guard is evaluated again before every page: a session that stops
      being authorised between two pages fails the listing, and the items
      already gathered are lost. */
  lemma GuardRecheckedEachPage(s: Session, key: string, page: PageBody, reply: PageReply)
    requires Authorised(s, key)
    requires page.items.Some? && HasNext(page)
    ensures var feed := [Turn(s, PageOk(Some(page))), Turn(Idle, reply)];
            EndsFrom(feed, key, 0) && ListAllPosts(key, feed) == Err(NotInitialized)
  {
    var feed := [Turn(s, PageOk(Some(page))), Turn(Idle, reply)];
    assert Halts(feed[1], key);
    assert ListFrom(key, feed, 1, page.items.value) == Err(NotInitialized);
    assert ListFrom(key, feed, 0, []) == ListFrom(key, feed, 1, [] + page.items.value);
  }

  /** Two pages, the first with a token: the items of both, in order. */
  lemma TwoPagesConcatenate(s: Session, key: string, a: Post, b: Post, c: Post)
    requires Authorised(s, key)
    ensures var feed := Steady(s, [PageOk(Some(PageBody(Some([a, b]), Some("t1")))),
                                   PageOk(Some(PageBody(Some([c]), None)))]);
            EndsFrom(feed, key, 0) && ListAllPosts(key, feed) == Ok([a, b, c])
  {
    var feed := Steady(s, [PageOk(Some(PageBody(Some([a, b]), Some("t1")))),
                           PageOk(Some(PageBody(Some([c]), None)))]);
    assert Halts(feed[1], key);
    assert ListFrom(key, feed, 1, [a, b]) == Ok([a, b] + [c]);
    assert ListFrom(key, feed, 0, []) == ListFrom(key, feed, 1, [] + [a, b]);
    assert [] + [a, b] == [a, b];
    assert [a, b] + [c] == [a, b, c];
  }

  /** An empty `items` array is present, so it does not stop the listing:
      the token is followed and the next page's items are collected. Only a
      missing `items` field stops early. */
  lemma EmptyPageContinues(s: Session, key: string, c: Post)
    requires Authorised(s, key)
    ensures var feed := Steady(s, [PageOk(Some(PageBody(Some([]), Some("t1")))),
                                   PageOk(Some(PageBody(Some([c]), None)))]);
            EndsFrom(feed, key, 0) && ListAllPosts(key, feed) == Ok([c])
    ensures var feed := Steady(s, [PageOk(Some(PageBody(None, Some("t1")))),
                                   PageOk(Some(PageBody(Some([c]), None)))]);
            EndsFrom(feed, key, 0) && ListAllPosts(key, feed) == Ok([])
  {
    var feed := Steady(s, [PageOk(Some(PageBody(Some([]), Some("t1")))),
                           PageOk(Some(PageBody(Some([c]), None)))]);
    assert Halts(feed[1], key);
    assert ListFrom(key, feed, 1, []) == Ok([] + [c]);
    assert ListFrom(key, feed, 0, []) == ListFrom(key, feed, 1, [] + []);
    var stops := Steady(s, [PageOk(Some(PageBody(None, Some("t1")))),
                            PageOk(Some(PageBody(Some([c]), None)))]);
    assert Halts(stops[0], key);
  }

  /** A 404 on a later page surfaces as blog-not-found, not wrapped again. */
  lemma LaterNotFoundSurfaces(s: Session, key: string, page: PageBody, e: ApiError)
    requires Authorised(s, key) && e.code == Some(404)
    requires page.items.Some? && HasNext(page)
    ensures var feed := Steady(s, [PageOk(Some(page)), PageFault(e)]);
            EndsFrom(feed, key, 0) && ListAllPosts(key, feed) == Err(BlogNotFoundForId)
  {
    var feed := Steady(s, [PageOk(Some(page)), PageFault(e)]);
    assert Halts(feed[1], key);
    assert ListFrom(key, feed, 1, page.items.value) == Err(BlogNotFoundForId);
    assert ListFrom(key, feed, 0, []) == ListFrom(key, feed, 1, [] + page.items.value);
  }
}

=== FILE: outcome.dfy ===
/** Failure-compatible wrappers used by every other module: an optional
    value (JavaScript's `undefined`/`null` versus a value) and the outcome
    of an operation that may throw. */
module Outcome {

  /** A value that may be absent. */
  datatype Option<+T> = None | Some(value: T)

  /** The settled state of a promise: resolved with a value or rejected with an error. */
  datatype Result<+T, +E> = Ok(value: T) | Err(error: E)
}

=== FILE: remote.dfy ===
/** The Google API client as an oracle. Every remote call the application
    makes (`gapi.client.init`, `blogger.blogs.getByUrl`,
    `blogger.posts.list`) is represented by the reply it produced, so the
    model is a function of those replies. Also here: the error object such
    calls reject with, and the fallback chains that turn it into text. */
module Remote {
  import opened Outcome

  /** A rejected call's error object. JavaScript's `||` treats the empty
      string as absent, so an absent text field is modelled as "".
      - `details`: the client's own `error.details`
      - `code`: `error.result.error.code`, when that path exists
      - `resultMessage`: `error.result.error.message`
      - `message`: `error.message`
      - `serialized`: `JSON.stringify(error)`, the last resort */
  datatype ApiError = ApiError(
    details: string,
    code: Option<int>,
    resultMessage: string,
    message: string,
    serialized: string)

  /** An `Error` the application throws itself: only `message` is set, and
      its serialisation is the empty object. */
  function Thrown(message: string): (e: ApiError)
    ensures e.code == None && e.details == "" && e.message == message
  {
    ApiError("", None, "", message, "{}")
  }

  /** `a || b || … || z` on strings: the first non-empty candidate, or the
      last candidate when all are empty. */
  function FirstTruthy(cands: seq<string>): (r: string)
    requires |cands| > 0
    ensures r in cands
    ensures r == "" <==> forall i :: 0 <= i < |cands| ==> cands[i] == ""
    ensures r != "" ==> exists k :: 0 <= k < |cands| && cands[k] == r
                                    && forall j :: 0 <= j < k ==> cands[j] == ""
  {
    if |cands| == 1 || cands[0] != "" then cands[0]
    else
      var r := FirstTruthy(cands[1..]);
      assert r != "" ==> exists k :: 1 <= k < |cands| && cands[k] == r
                                     && forall j :: 0 <= j < k ==> cands[j] == "";
      r
  }

  /** The message chain of the initialisation failure:
      details, then the nested result message, then message, then serialisation. */
  function InitDetail(e: ApiError): string {
    FirstTruthy([e.details, e.resultMessage, e.message, e.serialized])
  }

  /** The message chain of the blog and post calls, which skips the nested
      result message: details, then message, then serialisation. */
  function CallDetail(e: ApiError): string {
    FirstTruthy([e.details, e.message, e.serialized])
  }

  /** The initialisation chain prefers `details` and otherwise takes the
      first non-empty field in the order the source lists them. */
  lemma InitDetailOrder(e: ApiError)
    ensures e.details != "" ==> InitDetail(e) == e.details
    ensures e.details == "" && e.resultMessage != "" ==> InitDetail(e) == e.resultMessage
    ensures e.details == "" && e.resultMessage == "" && e.message != "" ==> InitDetail(e) == e.message
    ensures e.details == "" && e.resultMessage == "" && e.message == "" ==> InitDetail(e) == e.serialized
  {
    var c := [e.details, e.resultMessage, e.message, e.serialized];
    if e.details == "" {
      assert c[1..] == [e.resultMessage, e.message, e.serialized];
      assert InitDetail(e) == FirstTruthy(c[1..]);
      if e.resultMessage == "" {
        assert c[1..][1..] == [e.message, e.serialized];
        assert InitDetail(e) == FirstTruthy([e.message, e.serialized]);
        if e.message == "" {
          assert [e.message, e.serialized][1..] == [e.serialized];
        }
      }
    }
  }

  /** The call chain never reports the nested result message unless some
      other field carries the same text. */
  lemma CallDetailOrder(e: ApiError)
    ensures e.details != "" ==> CallDetail(e) == e.details
    ensures e.details == "" && e.message != "" ==> CallDetail(e) == e.message
    ensures e.details == "" && e.message == "" ==> CallDetail(e) == e.serialized
    ensures CallDetail(e) in {e.details, e.message, e.serialized}
  {
    var c := [e.details, e.message, e.serialized];
    if e.details == "" {
      assert c[1..] == [e.message, e.serialized];
      assert CallDetail(e) == FirstTruthy([e.message, e.serialized]);
      if e.message == "" {
        assert [e.message, e.serialized][1..] == [e.serialized];
      }
    }
  }

  /** The reading of `new Date(post.published)` the application uses: local
      calendar year, month (0 to 11, 0 for January, as `getMonth`), day of the month
      and the time within the day. Later instants compare greater. */
  datatype Stamp = Stamp(year: int, month: int, day: int, clock: int)

  /** `a` is at or after `b`. */
  predicate NotBefore(a: Stamp, b: Stamp) {
    || a.year > b.year
    || (a.year == b.year && a.month > b.month)
    || (a.year == b.year && a.month == b.month && a.day > b.day)
    || (a.year == b.year && a.month == b.month && a.day == b.day && a.clock >= b.clock)
  }

  /** The parts of a post the application reads. */
  datatype Post = Post(id: string, title: string, url: string, published: Stamp)

  /** `response.result` of a `posts.list` call: `items` and `nextPageToken`
      may each be missing. */
  datatype PageBody = PageBody(items: Option<seq<Post>>, nextPageToken: Option<string>)

  /** The settlement of one `posts.list` call; `result` may be missing. */
  datatype PageReply = PageOk(result: Option<PageBody>) | PageFault(error: ApiError)

  /** `response.result` of a `blogs.getByUrl` call. */
  datatype BlogBody = BlogBody(id: Option<string>)

  /** The settlement of one `blogs.getByUrl` call. */
  datatype BlogReply = BlogOk(result: Option<BlogBody>) | BlogFault(error: ApiError)

  /** The settlement of one `gapi.client.init` call. */
  datatype InitReply = InitOk | InitFault(error: ApiError)

  /** A page whose `nextPageToken` is truthy: present and non-empty. */
  predicate HasNext(b: PageBody) {
    b.nextPageToken.Some? && b.nextPageToken.value != ""
  }

  /** The items a reply delivers, or nothing when they are missing. */
  function ItemsOf(reply: PageReply): (r: seq<Post>)
    ensures reply.PageOk? && reply.result.Some? && reply.result.value.items.Some?
            ==> r == reply.result.value.items.value
    ensures !(reply.PageOk? && reply.result.Some? && reply.result.value.items.Some?) ==> r == []
  {
    match reply
    case PageOk(Some(PageBody(Some(items), _))) => items
    case _ => []
  }
}

=== FILE: render.dfy ===
/** The result list of the Get-Posts handler (AsWebApp.7c0ccee6.js): posts
    sorted newest first, a month header whenever the month changes, one
    item per post with its link forced to https. */
module Render {
  import opened Outcome
  import opened JsText
  import opened Remote

  /** The month and year a header names ("March 2024"); for months 0 to 11
      the label is an injective function of the pair, so rows compare the pairs. */
  datatype MonthYear = MonthYear(month: int, year: int)

  function MonthYearOf(p: Post): MonthYear {
    MonthYear(p.published.month, p.published.year)
  }

  /** A list element of the result: a month header, a post item
      (`<strong>day:</strong> <a href=url>title</a>`), or the single
      "No posts found" element. */
  datatype Row = Header(period: MonthYear) | Item(day: int, url: string, title: string) | NoPostsNotice

  /** Newest first: every post is at or after every later one. */
  predicate SortedDesc(s: seq<Post>) {
    forall i, j :: 0 <= i < j < |s| ==> NotBefore(s[i].published, s[j].published)
  }

  /** Inserts `p` into a newest-first list before the first post it is at or
      after, so that among equal timestamps the earlier-listed post stays first. */
  function Insert(p: Post, s: seq<Post>): (r: seq<Post>)
    requires SortedDesc(s)
    ensures SortedDesc(r)
    ensures multiset(r) == multiset(s) + multiset{p}
    ensures forall x :: x in r <==> x in s || x == p
  {
    if s == [] || NotBefore(p.published, s[0].published) then [p] + s
    else
      var t := Insert(p, s[1..]);
      InsertBehind(p, s, t);
      [s[0]] + t
  }

  /** Putting the head of `s` back in front of `t`, which holds the rest of
      `s` and `p` newest first, keeps the order when `p` is older than it. */
  lemma InsertBehind(p: Post, s: seq<Post>, t: seq<Post>)
    requires SortedDesc(s) && s != [] && !NotBefore(p.published, s[0].published)
    requires SortedDesc(t) && multiset(t) == multiset(s[1..]) + multiset{p}
    requires forall x :: x in t <==> x in s[1..] || x == p
    ensures SortedDesc([s[0]] + t)
    ensures multiset([s[0]] + t) == multiset(s) + multiset{p}
    ensures forall x :: x in [s[0]] + t <==> x in s || x == p
  {
    assert s == [s[0]] + s[1..];
    assert forall x :: x in t ==> NotBefore(s[0].published, x.published);
  }

  /** `allPosts.sort((a, b) => new Date(b.published) - new Date(a.published))`:
      a stable sort, newest first. */
  function SortByPublished(s: seq<Post>): (r: seq<Post>)
    ensures SortedDesc(r)
    ensures multiset(r) == multiset(s)
    ensures |r| == |s|
  {
    if s == [] then []
    else
      assert s == [s[0]] + s[1..];
      Insert(s[0], SortByPublished(s[1..]))
  }

  /** The link an item shows: a leading `http://` becomes `https://` by
      `postUrl.replace('http://', 'https://')`, which rewrites only the first
      occurrence; other links are kept. */
  function SecureUrl(url: string): (r: string)
    ensures StartsWith(url, "http://") ==> r == "https://" + url[7..]
    ensures !StartsWith(url, "http://") ==> r == url
    ensures !StartsWith(r, "http://")
  {
    if StartsWith(url, "http://") then
      assert OccursAt(url, "http://", 0);
      var r := ReplaceFirst(url, "http://", "https://");
      assert r[4] == 's';
      r
    else url
  }

  function ItemRow(p: Post): Row {
    Item(p.published.day, SecureUrl(p.url), p.title)
  }

  /** The `forEach` over the sorted posts, `prev` being the month-year of the
      previous post (`currentMonthYear`, initially a value no post has). */
  function Group(s: seq<Post>, prev: Option<MonthYear>): (r: seq<Row>)
    decreases |s|
  {
    if s == [] then []
    else
      var my := MonthYearOf(s[0]);
      (if prev == Some(my) then [] else [Header(my)]) + [ItemRow(s[0])] + Group(s[1..], Some(my))
  }

  /** The rows rendered for a non-empty, already sorted list. */
  function Rows(s: seq<Post>): seq<Row> {
    Group(s, None)
  }

  // ---------------------------------------------------------------------
  // Reference definition: post by post, a header then the item.

  /** The rows of post `i`: a header exactly when it is the first post or its
      month-year differs from the previous post's, then its item. */
  function Block(s: seq<Post>, i: nat): seq<Row>
    requires i < |s|
  {
    (if i == 0 || MonthYearOf(s[i]) != MonthYearOf(s[i - 1]) then [Header(MonthYearOf(s[i]))] else [])
    + [ItemRow(s[i])]
  }

  /** The blocks of posts `k`, `k + 1`, … in order. */
  function Blocks(s: seq<Post>, k: nat): seq<Row>
    requires k <= |s|
    decreases |s| - k
  {
    if k == |s| then [] else Block(s, k) + Blocks(s, k + 1)
  }

  lemma {:induction false} GroupIsBlocksFrom(s: seq<Post>, k: nat)
    requires k <= |s|
    ensures Group(s[k..], if k == 0 then None else Some(MonthYearOf(s[k - 1]))) == Blocks(s, k)
    decreases |s| - k
  {
    if k < |s| {
      GroupIsBlocksFrom(s, k + 1);
      assert s[k..][0] == s[k];
      assert s[k..][1..] == s[k + 1..];
    }
  }

  /** The rendered rows are, post by post, a header exactly where the
      month-year changes (and before the first post) followed by the post's item. */
  lemma RowsAreBlocks(s: seq<Post>)
    ensures Rows(s) == Blocks(s, 0)
  {
    GroupIsBlocksFrom(s, 0);
    assert s[0..] == s;
  }

  // ---------------------------------------------------------------------
  // Items: one per post, in order.

  /** The item rows of `rows`, in order. */
  function ItemsOnly(rows: seq<Row>): seq<Row> {
    if rows == [] then []
    else (if rows[0].Item? then [rows[0]] else []) + ItemsOnly(rows[1..])
  }

  lemma {:induction false} ItemsOnlyAppend(a: seq<Row>, b: seq<Row>)
    ensures ItemsOnly(a + b) == ItemsOnly(a) + ItemsOnly(b)
  {
    if a != [] {
      assert (a + b)[1..] == a[1..] + b;
      ItemsOnlyAppend(a[1..], b);
    } else {
      assert a + b == b;
    }
  }

  /** One item row per post, in order. */
  function ItemRows(s: seq<Post>): (r: seq<Row>)
    ensures |r| == |s|
    ensures forall i :: 0 <= i < |s| ==> r[i] == ItemRow(s[i])
  {
    if s == [] then [] else [ItemRow(s[0])] + ItemRows(s[1..])
  }

  lemma {:induction false} GroupItems(s: seq<Post>, prev: Option<MonthYear>)
    ensures ItemsOnly(Group(s, prev)) == ItemRows(s)
    decreases |s|
  {
    if s != [] {
      var my := MonthYearOf(s[0]);
      var header := if prev == Some(my) then [] else [Header(my)];
      var rest := Group(s[1..], Some(my));
      assert Group(s, prev) == (header + [ItemRow(s[0])]) + rest;
      GroupItems(s[1..], Some(my));
      ItemsOnlyAppend(header + [ItemRow(s[0])], rest);
      ItemsOnlyAppend(header, [ItemRow(s[0])]);
      assert ItemsOnly(header) == [];
      assert ItemsOnly([ItemRow(s[0])]) == [ItemRow(s[0])];
    }
  }

  /** Exactly one item per post, in the given order, each showing the post's
      day, its https link and its title. */
  lemma RowsHaveOneItemPerPost(s: seq<Post>)
    ensures |ItemsOnly(Rows(s))| == |s|
    ensures forall i :: 0 <= i < |s| ==> ItemsOnly(Rows(s))[i] == ItemRow(s[i])
  {
    GroupItems(s, None);
  }

  // ---------------------------------------------------------------------
  // Headers: on a newest-first list, one per distinct month-year.

  /** The month-years named by the header rows, in order. */
  function HeadersOf(rows: seq<Row>): seq<MonthYear> {
    if rows == [] then []
    else (if rows[0].Header? then [rows[0].period] else []) + HeadersOf(rows[1..])
  }

  lemma {:induction false} HeadersOfAppend(a: seq<Row>, b: seq<Row>)
    ensures HeadersOf(a + b) == HeadersOf(a) + HeadersOf(b)
  {
    if a != [] {
      assert (a + b)[1..] == a[1..] + b;
      HeadersOfAppend(a[1..], b);
    } else {
      assert a + b == b;
    }
  }

  /** The month-years the posts fall in. */
  function Periods(s: seq<Post>): set<MonthYear> {
    if s == [] then {} else {MonthYearOf(s[0])} + Periods(s[1..])
  }

  /** `a` is a later month than `b`. */
  predicate LaterMonth(a: MonthYear, b: MonthYear) {
    a.year > b.year || (a.year == b.year && a.month > b.month)
  }

  lemma {:induction false} PeriodsOfSorted(s: seq<Post>)
    requires SortedDesc(s) && s != []
    ensures forall h :: h in Periods(s) ==> h == MonthYearOf(s[0]) || LaterMonth(MonthYearOf(s[0]), h)
    decreases |s|
  {
    if |s| > 1 {
      PeriodsOfSorted(s[1..]);
      assert NotBefore(s[0].published, s[1].published);
    }
  }

  /** The headers of one step of the grouping: this post's month-year unless
      it repeats `prev`, then the headers of the rest. */
  lemma GroupHeadersStep(s: seq<Post>, prev: Option<MonthYear>)
    requires s != []
    ensures var my := MonthYearOf(s[0]);
            HeadersOf(Group(s, prev)) == (if prev == Some(my) then [] else [my]) + HeadersOf(Group(s[1..], Some(my)))
  {
    var my := MonthYearOf(s[0]);
    var first := if prev == Some(my) then [] else [Header(my)];
    var rest := Group(s[1..], Some(my));
    assert Group(s, prev) == (first + [ItemRow(s[0])]) + rest;
    HeadersOfAppend(first + [ItemRow(s[0])], rest);
    HeadersOfAppend(first, [ItemRow(s[0])]);
    assert HeadersOf([ItemRow(s[0])]) == [];
    assert HeadersOf(first) == if prev == Some(my) then [] else [my];
  }

  /** The next post of a newest-first list is in the same or an earlier month. */
  lemma SortedTail(s: seq<Post>)
    requires SortedDesc(s) && s != []
    ensures SortedDesc(s[1..])
    ensures |s| > 1 ==> MonthYearOf(s[0]) == MonthYearOf(s[1]) || LaterMonth(MonthYearOf(s[0]), MonthYearOf(s[1]))
  {
    if |s| > 1 {
      assert NotBefore(s[0].published, s[1].published);
    }
  }

  /** Each month-year of `h` is strictly earlier than the ones before it. */
  predicate Descending(h: seq<MonthYear>) {
    forall i, j :: 0 <= i < j < |h| ==> LaterMonth(h[i], h[j])
  }

  /** Every header names a month strictly before `prev`. */
  lemma {:induction false} HeadersBelow(s: seq<Post>, prev: Option<MonthYear>)
    requires SortedDesc(s)
    requires prev.Some? && s != [] ==> prev.value == MonthYearOf(s[0]) || LaterMonth(prev.value, MonthYearOf(s[0]))
    ensures var h := HeadersOf(Group(s, prev));
            forall i :: 0 <= i < |h| && prev.Some? ==> LaterMonth(prev.value, h[i])
    decreases |s|
  {
    if s != [] {
      var my := MonthYearOf(s[0]);
      SortedTail(s);
      HeadersBelow(s[1..], Some(my));
      GroupHeadersStep(s, prev);
    }
  }

  /** The headers name strictly earlier months as the list goes on. */
  lemma {:induction false} HeadersDescend(s: seq<Post>, prev: Option<MonthYear>)
    requires SortedDesc(s)
    requires prev.Some? && s != [] ==> prev.value == MonthYearOf(s[0]) || LaterMonth(prev.value, MonthYearOf(s[0]))
    ensures Descending(HeadersOf(Group(s, prev)))
    decreases |s|
  {
    if s != [] {
      var my := MonthYearOf(s[0]);
      SortedTail(s);
      HeadersDescend(s[1..], Some(my));
      HeadersBelow(s[1..], Some(my));
      GroupHeadersStep(s, prev);
    }
  }

  /** The headers name exactly the posts' month-years, except `prev`. */
  lemma {:induction false} HeadersCover(s: seq<Post>, prev: Option<MonthYear>)
    requires SortedDesc(s)
    requires prev.Some? && s != [] ==> prev.value == MonthYearOf(s[0]) || LaterMonth(prev.value, MonthYearOf(s[0]))
    ensures forall m :: m in HeadersOf(Group(s, prev)) <==> m in Periods(s) && Some(m) != prev
    decreases |s|
  {
    if s != [] {
      var my := MonthYearOf(s[0]);
      SortedTail(s);
      HeadersCover(s[1..], Some(my));
      PeriodsOfSorted(s);
      GroupHeadersStep(s, prev);
      assert Periods(s) == {my} + Periods(s[1..]);
      forall m
        ensures m in HeadersOf(Group(s, prev)) <==> m in Periods(s) && Some(m) != prev
      {
        if m in Periods(s[1..]) && m != my && prev.Some? {
          assert LaterMonth(my, m);
        }
      }
    }
  }

  /** On a newest-first list the headers name strictly earlier months as the
      list goes on, so no month-year is announced twice, and every month-year
      of a post is announced: one header per distinct month-year. */
  lemma SortedRowsHeaders(s: seq<Post>)
    requires SortedDesc(s)
    ensures var h := HeadersOf(Rows(s));
            forall i, j :: 0 <= i < j < |h| ==> h[i] != h[j]
    ensures forall m :: m in HeadersOf(Rows(s)) <==> m in Periods(s)
  {
    var h := HeadersOf(Group(s, None));
    assert HeadersOf(Rows(s)) == h;
    HeadersDescend(s, None);
    HeadersCover(s, None);
    assert Descending(h);
    forall i, j | 0 <= i < j < |h|
      ensures h[i] != h[j]
    {
      assert LaterMonth(h[i], h[j]);
    }
  }

  /** Posts of 5 January, 1 March and 20 January 2024 are shown March first,
      then 20 and 5 January, under exactly two headers. */
  lemma ThreePostsExample(a: Post, b: Post, c: Post)
    requires a.published == Stamp(2024, 0, 5, 0)
    requires b.published == Stamp(2024, 2, 1, 0)
    requires c.published == Stamp(2024, 0, 20, 0)
    ensures SortByPublished([a, b, c]) == [b, c, a]
    ensures HeadersOf(Rows([b, c, a])) == [MonthYear(2, 2024), MonthYear(0, 2024)]
  {
    assert [a, b, c][1..] == [b, c];
    assert [b, c][1..] == [c];
    assert SortByPublished([c]) == [c];
    assert Insert(b, [c]) == [b, c];
    assert Insert(a, [b, c]) == [b] + Insert(a, [c]);
    assert Insert(a, [c]) == [c] + Insert(a, []);
    ThreePostsHeaders(a, b, c);
  }

  lemma ThreePostsHeaders(a: Post, b: Post, c: Post)
    requires MonthYearOf(a) == MonthYearOf(c) == MonthYear(0, 2024)
    requires MonthYearOf(b) == MonthYear(2, 2024)
    ensures HeadersOf(Rows([b, c, a])) == [MonthYear(2, 2024), MonthYear(0, 2024)]
  {
    var m2, m0 := MonthYear(2, 2024), MonthYear(0, 2024);
    var last := Group([a], Some(m0));
    assert [a][1..] == [];
    assert Group([], Some(m0)) == [];
    assert last == [] + [ItemRow(a)] + [];
    var mid := Group([c, a], Some(m2));
    assert [c, a][1..] == [a];
    assert mid == [Header(m0), ItemRow(c)] + last;
    var all := Group([b, c, a], None);
    assert [b, c, a][1..] == [c, a];
    assert all == [Header(m2), ItemRow(b)] + mid;
    assert HeadersOf(last) == [];
    HeadersOfAppend([Header(m0), ItemRow(c)], last);
    assert HeadersOf([Header(m0), ItemRow(c)]) == [m0];
    HeadersOfAppend([Header(m2), ItemRow(b)], mid);
    assert HeadersOf([Header(m2), ItemRow(b)]) == [m2];
  }
}

=== FILE: session.dfy ===
/** The client session of the current build (AsWebApp.7c0ccee6.js): whether
    `gapi.client.init` has succeeded and with which key
    (`gapiClientReady`, `currentApiKeyInClient`). The session is an
    authority only for the key it was initialised with. */
module ClientSession {
  import opened JsText
  import opened Remote

  datatype Session = Session(ready: bool, activeKey: string)

  /** The state of a fresh page, and the state every reset returns to. */
  const Idle := Session(false, "")

  /** The session may be used for requests made with `key`: the guard of
      `getBlogIdFromUrl`, `listAllPosts` and the Get-Posts handler. */
  predicate Authorised(s: Session, key: string) {
    s.ready && key == s.activeKey
  }

  /** Ready sessions always carry the (non-empty) key they were initialised with. */
  predicate Valid(s: Session) {
    s.ready ==> s.activeKey != ""
  }

  /** How a call of `initGapiClient` ended; each outcome shows a message. */
  datatype InitResult = MissingKey | AlreadyReady | Initialised | InitFailed(detail: string)

  /** The message each outcome displays. */
  function InitText(r: InitResult): string {
    match r
    case MissingKey => "API Key is missing for initialization."
    case AlreadyReady => "API Client already initialized with this key."
    case Initialised => "Google API Client ready. You can now Get All Posts."
    case InitFailed(d) =>
      "Failed to initialize API client. Error: " + d + ". Please check your key and restrictions."
  }

  /** Whether the outcome came from a remote call. */
  predicate CalledRemote(r: InitResult) {
    r.Initialised? || r.InitFailed?
  }

  datatype InitStep = InitStep(session: Session, result: InitResult)

  /** What `gapi.client.init` settling with `reply` does to the session:
      the key that was sent becomes the active key on success, and the
      session is cleared on failure, whatever it was before. */
  function InitSettled(key: string, reply: InitReply): (r: InitStep)
    ensures r.session.ready <==> reply.InitOk?
    ensures r.session.ready ==> r.session.activeKey == key
    ensures !r.session.ready ==> r.session == Idle
    ensures CalledRemote(r.result)
  {
    match reply
    case InitOk => InitStep(Session(true, key), Initialised)
    case InitFault(e) => InitStep(Idle, InitFailed(InitDetail(e)))
  }

  /** `initGapiClient(key)`, with the remote call settling with `reply`. */
  function InitGapiClient(s: Session, key: string, reply: InitReply): (r: InitStep)
    ensures key == "" ==> r == InitStep(Idle, MissingKey)
    ensures key != "" && Authorised(s, key) ==> r == InitStep(s, AlreadyReady)
    ensures CalledRemote(r.result) <==> key != "" && !Authorised(s, key)
    ensures Authorised(r.session, key) <==> r.result.AlreadyReady? || r.result.Initialised?
    ensures key != "" && !Authorised(s, key) && reply.InitOk? ==> r == InitStep(Session(true, key), Initialised)
    ensures key != "" && !Authorised(s, key) && reply.InitFault? ==> r == InitStep(Idle, InitFailed(InitDetail(reply.error)))
    ensures Valid(s) ==> Valid(r.session)
  {
    if key == "" then InitStep(Idle, MissingKey)
    else if s.ready && s.activeKey == key then InitStep(s, AlreadyReady)
    else InitSettled(key, reply)
  }

  /** No remote call: an empty key or an already-authorised key gives the
      same step whatever the remote would have answered. */
  lemma InitShortCircuitIgnoresRemote(s: Session, key: string, reply1: InitReply, reply2: InitReply)
    requires key == "" || Authorised(s, key)
    ensures InitGapiClient(s, key, reply1) == InitGapiClient(s, key, reply2)
  {
  }

  /** Initialising twice in succession with the same key after a success
      makes no second remote call and leaves the session as it was. */
  lemma InitIdempotent(s: Session, key: string, reply1: InitReply, reply2: InitReply)
    requires key != ""
    requires InitGapiClient(s, key, reply1).session.ready
    ensures var s1 := InitGapiClient(s, key, reply1).session;
            InitGapiClient(s1, key, reply2) == InitStep(s1, AlreadyReady)
  {
  }

  /** The key-input handler: an edit that makes the trimmed input differ
      from the active key of a ready session resets it, with no remote call;
      any other edit leaves the session alone. */
  function OnKeyInput(s: Session, input: string): (r: Session)
    ensures r.ready ==> Authorised(r, Trim(input))
    ensures r == s <==> !s.ready || Trim(input) == s.activeKey
    ensures r != s ==> r == Idle
    ensures Valid(s) ==> Valid(r)
  {
    if s.ready && Trim(input) != s.activeKey then Idle else s
  }

  /** After the key-input handler a session is ready exactly when it is
      authorised for the key now in the field: a stale session never survives
      an edit. */
  lemma EditLeavesNoStaleSession(s: Session, input: string)
    ensures OnKeyInput(s, input).ready <==> Authorised(OnKeyInput(s, input), Trim(input))
    ensures Authorised(OnKeyInput(s, input), Trim(input)) <==> Authorised(s, Trim(input))
  {
  }

  /** The clear handler's reset (`gapiClientReady = false; currentApiKeyInClient = ''`). */
  function Cleared(s: Session): (r: Session)
    ensures !r.ready && r.activeKey == ""
    ensures forall key :: !Authorised(r, key)
  {
    Idle
  }
}
